=== FILE: README.md ===
# render.h tile scheduler — a Dafny model

This project models the integer core of `render.h`, a small header-only
library that renders an image in parallel. A rectangle of pixels
(`work_range`) is cut into tiles of at most 64 x 64 by repeated bisection of
the longer edge (`split_range`, `generate_parallel_for_domain`). The tiles
go into a FIFO queue. Workers repeatedly `take_range` from the queue, and
while fewer tiles are queued than there are threads, a taken tile with both
edges above 4 is split once more. Each worker walks its tile's pixels in
row-major order (`iterate_over_tile`) and hands every colour to a `store`
callback, which usually writes it into a `framebuffer` at index
`x + y * width`. The model also covers the integer and bool instances of
the vector library the renderer uses (`lucmath_gen.h`, `lucmath.h`).
For `bool` components (`Bool2/3/4`) the C++ promotes each operand to `int`.
The arithmetic result is converted back to `bool`, so `+` acts as OR,
`*` as AND and `-` as XOR. The functions covered are
the componentwise operators, `Collapse`, `Dot`, `Cross`, `Min`, `Max`, `Map`,
`Lerp`, `Clamp`, `AllTrue`, `AnyTrue` and `Bounds`.

Modules, one per concept:

- `Wrappers`: `Option`.
- `IntMath`: C++ integer division, which truncates toward zero; `std::midpoint`, which rounds toward its first argument; `std::min` and `std::max`.
- `Vectors` (`lucmath_gen.h`): one `Vector<T>` datatype over a sequence of components, with `X`/`Y`/`Z`/`W` accessors. The integer operators work on `Vector<int>`, and the `Bool*` operators on `Vector<bool>` through integral promotion. The operators are defined for 2 to 4 components, as the C++ specialisations are. The 2-, 3- and 4-component operator sets are textually identical, so the table cites the 2-component lines.
- `LucMath` (`lucmath.h`): reductions, products, `Min`/`Max`/`Clamp`/`Map`/`Lerp`, and `Bounds`.
- `Ranges`: `work_range`, `work_domain`, splitting, subdivision and the queue constructor.
- `TileIteration`: `work_block` and the pixel visit order of `iterate_over_tile`.
- `Scheduler`: `take_range` as a pure step on a sequence, the worker loop as a drain of that step, and `parallel_for`.
- `Framebuffers`: `framebuffer` construction, indexing and writes.

The threads of `parallel_for` share one queue under a mutex. Each
`take_range` is therefore one atomic step, and the queue evolves through the
same sequence of steps whichever thread makes each call. The model runs
those steps in one loop and records the stores in order. The loop's result
(which pixels are stored, and how often) is the result of every
interleaving; only the order of stores differs.

The code has no configurable or validated `max_size`, no failure on
malformed ranges and no cancellation token. The tile bound is the constant
64 and the split threshold is the constant 4. Inverted ranges (`min > max`)
are accepted. For a signed `TSize` (the default `int`), a range inverted on
both axes is emitted as one tile. A range inverted on one axis is still cut
along the other axis while that edge exceeds 64. Every such tile holds no
pixel. For an unsigned `TSize` an inverted edge wraps around instead (see
"Findings").

## Model

| member | source | states |
|---|---|---|
| IntMath.TruncDiv | lucmath_gen.h:279-284 | integer `/` truncates toward zero: the quotient has magnitude `|a| / |b|` and is non-negative exactly when the operands have the same sign (or the dividend is 0) |
| IntMath.TruncDivRemainder | lucmath_gen.h:279-284 | the remainder left by truncating division is smaller than the divisor in magnitude and has the sign of the dividend |
| IntMath.TruncDivOfMultiple | lucmath_gen.h:279-284 | dividing `a * b` by a nonzero `b` gives back `a`, for every sign of `a` and `b` |
| IntMath.Midpoint | render.h:51 | `std::midpoint(min, max)` lies between its arguments and rounds toward the first one |
| IntMath.Min | lucmath.h:186 | `std::min` is a lower bound of both arguments and equals one of them |
| IntMath.Max | lucmath.h:197 | `std::max` is an upper bound of both arguments and equals one of them |
| Vectors.Zero | lucmath_gen.h:37 | the default constructor has every component 0 |
| Vectors.Broadcast | lucmath_gen.h:38 | the scalar constructor puts the scalar in every component |
| Vectors.Vector2 | lucmath_gen.h:47 | the two-argument constructor sets `x`, `y` in order |
| Vectors.Vector3 | lucmath_gen.h:76 | the three-argument constructor sets `x`, `y`, `z` in order |
| Vectors.Vector4 | lucmath_gen.h:135 | the four-argument constructor sets `x`, `y`, `z`, `w` in order |
| Vectors.Vector3Of21 | lucmath_gen.h:77 | `VectorTN<T,3>(xy, z)` is `(xy.x, xy.y, z)` |
| Vectors.Vector3Of12 | lucmath_gen.h:78 | `VectorTN<T,3>(x, yz)` is `(x, yz.x, yz.y)` |
| Vectors.Vector4Of211 | lucmath_gen.h:136 | `VectorTN<T,4>(xy, z, w)` is `(xy.x, xy.y, z, w)` |
| Vectors.Vector4Of31 | lucmath_gen.h:137 | `VectorTN<T,4>(xyz, w)` is `(xyz.x, xyz.y, xyz.z, w)` |
| Vectors.Vector4Of22 | lucmath_gen.h:138 | `VectorTN<T,4>(xy, zw)` is `(xy.x, xy.y, zw.x, zw.y)` |
| Vectors.Vector4Of13 | lucmath_gen.h:139 | `VectorTN<T,4>(x, yzw)` is `(x, yzw.x, yzw.y, yzw.z)` |
| Vectors.Vector4Of121 | lucmath_gen.h:140 | `VectorTN<T,4>(x, yz, w)` is `(x, yz.x, yz.y, w)` |
| Vectors.Vector4Of112 | lucmath_gen.h:141 | `VectorTN<T,4>(x, y, zw)` is `(x, y, zw.x, zw.y)` |
| Vectors.Add | lucmath_gen.h:225-230 | `t + u` is componentwise on vectors of the same size |
| Vectors.AddScalar | lucmath_gen.h:231-236 | `t + s` applies `+ s` to every component |
| Vectors.ScalarAdd | lucmath_gen.h:237-242 | `s + u` applies `s +` to every component, the scalar on the left |
| Vectors.Sub | lucmath_gen.h:243-248 | `t - u` is componentwise on vectors of the same size |
| Vectors.SubScalar | lucmath_gen.h:249-254 | `t - s` applies `- s` to every component |
| Vectors.ScalarSub | lucmath_gen.h:255-260 | `s - u` applies `s -` to every component, the scalar on the left |
| Vectors.Mul | lucmath_gen.h:261-266 | `t * u` is componentwise on vectors of the same size |
| Vectors.MulScalar | lucmath_gen.h:267-272 | `t * s` applies `* s` to every component |
| Vectors.ScalarMul | lucmath_gen.h:273-278 | `s * u` applies `s *` to every component, the scalar on the left |
| Vectors.Div | lucmath_gen.h:279-284 | `t / u` is componentwise truncating division; every divisor component must be nonzero |
| Vectors.DivScalar | lucmath_gen.h:285-290 | `t / s` divides every component by the nonzero scalar `s`, truncating |
| Vectors.ScalarDiv | lucmath_gen.h:291-296 | `s / u` divides `s` by every component of `u`, all nonzero, truncating |
| Vectors.Lt | lucmath_gen.h:297-302 | `t < u` is a bool vector holding `t_i < u_i` for each component, not a single bool |
| Vectors.LtScalar | lucmath_gen.h:303-308 | `t < s` is a bool vector holding `t_i < s` for each component |
| Vectors.ScalarLt | lucmath_gen.h:309-314 | `s < u` is a bool vector holding `s < u_i` for each component |
| Vectors.Le | lucmath_gen.h:315-320 | `t <= u` is a bool vector holding `t_i <= u_i` for each component, not a single bool |
| Vectors.LeScalar | lucmath_gen.h:321-326 | `t <= s` is a bool vector holding `t_i <= s` for each component |
| Vectors.ScalarLe | lucmath_gen.h:327-332 | `s <= u` is a bool vector holding `s <= u_i` for each component |
| Vectors.Gt | lucmath_gen.h:333-338 | `t > u` is a bool vector holding `t_i > u_i` for each component, not a single bool |
| Vectors.GtScalar | lucmath_gen.h:339-344 | `t > s` is a bool vector holding `t_i > s` for each component |
| Vectors.ScalarGt | lucmath_gen.h:345-350 | `s > u` is a bool vector holding `s > u_i` for each component |
| Vectors.Ge | lucmath_gen.h:351-356 | `t >= u` is a bool vector holding `t_i >= u_i` for each component, not a single bool |
| Vectors.GeScalar | lucmath_gen.h:357-362 | `t >= s` is a bool vector holding `t_i >= s` for each component |
| Vectors.ScalarGe | lucmath_gen.h:363-368 | `s >= u` is a bool vector holding `s >= u_i` for each component |
| Vectors.Eq | lucmath_gen.h:369-374 | `t == u` is a bool vector holding `t_i == u_i` for each component, not a single bool |
| Vectors.EqScalar | lucmath_gen.h:375-380 | `t == s` is a bool vector holding `t_i == s` for each component |
| Vectors.ScalarEq | lucmath_gen.h:381-386 | `s == u` is a bool vector holding `s == u_i` for each component |
| Vectors.Ne | lucmath_gen.h:387-392 | `t != u` is a bool vector holding `t_i != u_i` for each component, not a single bool |
| Vectors.NeScalar | lucmath_gen.h:393-398 | `t != s` is a bool vector holding `t_i != s` for each component |
| Vectors.ScalarNe | lucmath_gen.h:399-404 | `s != u` is a bool vector holding `s != u_i` for each component |
| Vectors.Neg | lucmath_gen.h:445-450 | unary minus negates every component (likewise at lines 671-676 and 897-902) |
| Vectors.ArithmeticScalarsBroadcast | lucmath_gen.h:225-296 | a scalar operand of `+`, `-`, `*` or `/`, on either side, acts as the broadcast vector (for `/` where no divisor is 0) |
| Vectors.ComparisonScalarsBroadcast | lucmath_gen.h:297-404 | a scalar operand of `<`, `<=`, `>`, `>=`, `==` or `!=`, on either side, acts as the broadcast vector |
| Vectors.SubUndoesAdd | lucmath_gen.h:225-248 | subtraction undoes addition and addition undoes subtraction |
| Vectors.NegProperties | lucmath_gen.h:445-450 | negation is `0 - t`, an involution, and the additive inverse |
| Vectors.Identities | lucmath_gen.h:225-266 | adding the zero vector and multiplying by the all-ones vector leave a vector unchanged |
| Vectors.DivUndoesMul | lucmath_gen.h:261-284 | dividing `t * u` by `u` (no zero component) gives back `t`, despite truncation |
| Vectors.ComparisonDualities | lucmath_gen.h:297-404 | `<` and `>` (and `<=` and `>=`) are mirror images; `!=` is the negation of `==`, `>=` of `<`, and `<=` is `<` or `==` componentwise |
| Vectors.AddAssign | lucmath_gen.h:405-409 | `t += u` stores `t + u` componentwise |
| Vectors.AddAssignScalar | lucmath_gen.h:410-414 | `t += s` stores `t_i + s` in every component |
| Vectors.SubAssign | lucmath_gen.h:415-419 | as written, `t -= u` stores `t + u` componentwise, not the difference |
| Vectors.SubAssignScalar | lucmath_gen.h:420-424 | as written, `t -= s` stores `t_i + s`, not `t_i - s` |
| Vectors.MulAssign | lucmath_gen.h:425-429 | as written, `t *= u` stores `t + u` componentwise, not the product |
| Vectors.MulAssignScalar | lucmath_gen.h:430-434 | as written, `t *= s` stores `t_i + s`, not `t_i * s` |
| Vectors.DivAssign | lucmath_gen.h:435-439 | as written, `t /= u` stores `t + u` componentwise, not the quotient |
| Vectors.DivAssignScalar | lucmath_gen.h:440-444 | as written, `t /= s` stores `t_i + s`, not `t_i / s` |
| Vectors.SubAssignIsNotSubtraction | lucmath_gen.h:415-424 | the as-written `t -= u` equals `t - u` only when `u` is the zero vector |
| Vectors.MulAssignIsNotMultiplication | lucmath_gen.h:425-434 | the as-written `(3,3) *= (2,2)` yields `(5,5)`, the product would be `(6,6)` |
| Vectors.DivAssignIsNotDivision | lucmath_gen.h:435-444 | the as-written `(6,6) /= (2,2)` yields `(8,8)`, the quotient would be `(3,3)` |
| Vectors.SubAssignIntended | lucmath_gen.h:415-419 | the corrected `t -= u` stores the vector that gives `t` back when `u` is added |
| Vectors.MulAssignIntended | lucmath_gen.h:425-429 | the corrected `t *= u` stores the componentwise product |
| Vectors.DivAssignIntended | lucmath_gen.h:435-439 | the corrected `t /= u` stores the componentwise truncating quotient |
| Vectors.BoolAdd | lucmath_gen.h:225-230 | on `Bool` vectors, `t + u` (promoted to `int`, converted back) is componentwise OR |
| Vectors.BoolSub | lucmath_gen.h:243-248 | on `Bool` vectors, `t - u` is componentwise exclusive OR |
| Vectors.BoolMul | lucmath_gen.h:261-266 | on `Bool` vectors, `t * u` is componentwise AND |
| Vectors.BoolDiv | lucmath_gen.h:279-284 | on `Bool` vectors, `t / u` needs every divisor `true` (a `false` divisor divides by zero) and then returns `t` |
| Vectors.BoolNeg | lucmath_gen.h:445-450 | on `Bool` vectors, unary minus returns its operand unchanged |
| Vectors.BoolAssign | lucmath_gen.h:405-444 | on `Bool` vectors, every compound assignment as written stores `t + u`, i.e. componentwise OR |
| Vectors.BoolLt | lucmath_gen.h:297-302 | on `Bool` vectors, `t < u` orders `false` before `true`: `!t_i && u_i` |
| Vectors.BoolLe | lucmath_gen.h:315-320 | on `Bool` vectors, `t <= u` is componentwise implication `t_i ==> u_i` |
| Vectors.BoolGt | lucmath_gen.h:333-338 | on `Bool` vectors, `t > u` is `t_i && !u_i` |
| Vectors.BoolGe | lucmath_gen.h:351-356 | on `Bool` vectors, `t >= u` is `u_i ==> t_i` |
| Vectors.BoolAlgebra | lucmath_gen.h:225-266 | on `Bool` vectors, `+` and `*` are idempotent, `-` is its own inverse and `t - t` is all false; `(t + u) - u` gives back `t` exactly when `t` and `u` share no true component |
| LucMath.FoldFromIsLeftFold | lucmath.h:99-105 | the `N > 4` loop that starts from `E[0]` and folds the rest equals the left fold of the whole vector |
| LucMath.Collapse | lucmath.h:90-106 | whatever N, `Collapse` with any operator is the left fold of the components, e.g. `((x op y) op z) op w` for four; for `N > 4` this rests on `FoldFromIsLeftFold` |
| LucMath.LeftFoldPlusIsSum | lucmath.h:90-106 | left-folding with `+` gives the sum of the components |
| LucMath.CollapsePlusIsSum | lucmath.h:90-106 | `Collapse` with its default `std::plus` is the sum of the components |
| LucMath.Dot | lucmath.h:119-124 | `Dot(a, b)` is the sum of the componentwise products |
| LucMath.LengthSquared | lucmath.h:126-131 | `LengthSquared(a)` is the sum of the squared components |
| LucMath.DistanceSquared | lucmath.h:140-145 | `DistanceSquared(a, b)` is the sum of the squared components of `a - b` |
| LucMath.DotSymmetric | lucmath.h:119-124 | `Dot(a, b) == Dot(b, a)` |
| LucMath.LengthSquaredProperties | lucmath.h:126-131 | `LengthSquared` is non-negative and zero exactly for the zero vector |
| LucMath.DistanceSquaredProperties | lucmath.h:140-145 | `DistanceSquared` is symmetric, non-negative and zero exactly when the vectors are equal |
| LucMath.Cross | lucmath.h:108-117 | the cross product of two 3-vectors is a 3-vector |
| LucMath.CrossIsDeterminant | lucmath.h:108-117 | `Cross(a, b)` dotted with any `c` is the determinant with rows `a`, `b`, `c`; with `c` each unit axis this fixes every component of `a x b`, sign included |
| LucMath.CrossRightHanded | lucmath.h:108-117 | the unit axes are right-handed: `x x y == z`, `y x z == x`, `z x x == y` |
| LucMath.CrossProperties | lucmath.h:108-117 | the cross product is anticommutative, vanishes on `(a, a)` and is orthogonal (zero dot product) to both operands |
| LucMath.CrossOrthogonalFirst | lucmath.h:108-117 | `Cross(a, b)` has zero dot product with `a` |
| LucMath.CrossOrthogonalSecond | lucmath.h:108-117 | `Cross(a, b)` has zero dot product with `b` |
| LucMath.Min | lucmath.h:181-190 | the result is componentwise the lesser of the inputs: a lower bound of both, attained by one of them |
| LucMath.Max | lucmath.h:192-201 | the result is componentwise the greater of the inputs: an upper bound of both, attained by one of them |
| LucMath.MinMaxOrder | lucmath.h:181-201 | `Min(t, u) <= t, u <= Max(t, u)` in every component; both are symmetric and idempotent |
| LucMath.Map | lucmath.h:203-207 | `Map` sends `in_min` to `out_min` and `in_max` to `out_max`, exactly, under truncating division |
| LucMath.MapStaysInRange | lucmath.h:203-207 | for an increasing input interval and an ordered output interval, a point inside the input lands inside the output |
| LucMath.MapVector | lucmath.h:209-213 | the vector `Map`, built from the vector operators, equals the scalar `Map` in every component, and each component interval is non-empty |
| LucMath.Lerp | lucmath.h:215-219 | `Lerp` gives `a` at 0 and `b` at 1, is constant when `a == b`, and equals `a + x * (b - a)` |
| LucMath.LerpVector | lucmath.h:221-225 | the vector `Lerp`, built from the scalar-vector operators, equals the scalar `Lerp` in every component |
| LucMath.Clamp | lucmath.h:227-233 | the result lies in `[lo, hi]` when `lo <= hi` and is `x` itself when `x` already does |
| LucMath.ClampProperties | lucmath.h:227-233 | `Clamp(x, lo, hi) == max(lo, min(x, hi))` for `lo <= hi`, and clamping twice is clamping once |
| LucMath.AllTrue | lucmath.h:235-242 | `AllTrue` holds exactly when every component is true |
| LucMath.AnyTrue | lucmath.h:244-251 | `AnyTrue` holds exactly when some component is true |
| LucMath.EqualityReductions | lucmath.h:235-251 | `AllTrue(t == u)` exactly when `t` equals `u`; `AnyTrue(t != u)` exactly when they differ |
| LucMath.DefaultBounds | lucmath.h:256-257 | the default `Bounds` has every `min` component at `maxT` and every `max` component at `-maxT` |
| LucMath.DefaultBoundsIsEmpty | lucmath.h:256-257 | for a positive `maxT` the default box contains no point |
| LucMath.UnionPoint | lucmath.h:275-279 | after `Union(v)` the box contains `v` and encloses the previous box |
| LucMath.UnionPointIsSmallest | lucmath.h:275-279 | every box that encloses the previous box and contains `v` encloses the result of `Union(v)` |
| LucMath.UnionBounds | lucmath.h:269-273 | `Union(b)` gives the smallest box enclosing both boxes |
| LucMath.DefaultUnionPoint | lucmath.h:256-279 | a default `Bounds` unioned with a point `p` within `[-maxT, maxT]` is exactly `min == max == p` |
| LucMath.Int32MinimumMissesDefaultMax | lucmath.h:256-279 | at `int32_t`, a default box unioned with a point whose first component is `INT32_MIN` gets that point as `min` but keeps `max` at `-INT32_MAX` there |
| LucMath.Volume | lucmath.h:281-285 | `Volume()` is the vector that takes `min` to `max` |
| LucMath.VolumeProperties | lucmath.h:281-285 | a box holding a point has a non-negative volume, and a one-point box has zero volume |
| LucMath.BoundsOf | lucmath.h:259-267 | the variadic constructor gives a box containing every argument whose corners are attained by arguments in every component |
| Ranges.SplitRange | render.h:38-64 | the range is cut along x exactly when width > height (ties cut along y); the halves share the cut line and keep the other axis |
| Ranges.SplitCutLine | render.h:51-63 | the cut line lies between the bounds of the cut axis and rounds toward its minimum |
| Ranges.SplitPartition | render.h:38-64 | a pixel is in the range exactly when it is in one of the halves, never in both, and the areas add up |
| Ranges.SplitShrinks | render.h:38-64 | the halves of a well-formed range are well formed, and a cut edge of at least 2 strictly shrinks in both halves |
| Ranges.SplitWithin | render.h:38-64 | both halves of a well-formed range lie inside it, so a pixel of either half is a pixel of the range |
| Ranges.Subdivide | render.h:70-85 | at least one tile is emitted, every tile has both edges at most 64, and well-formed input gives well-formed tiles |
| Ranges.SubdivideCovers | render.h:75-86 | every pixel of the range is in exactly one tile and no other pixel is in any tile |
| Ranges.SubdivideKeepsArea | render.h:75-86 | the tiles' areas add up to the area of the range |
| Ranges.SubdivideDepthFirst | render.h:77-79 | an oversized range emits all of the first half's tiles before the second half's |
| Ranges.SubdivideSmall | render.h:81-84 | a range already within the bound is emitted as the only tile |
| Ranges.SubdivideWithin | render.h:70-85 | every tile emitted for a well-formed range lies inside that range |
| Ranges.GenerateDomain | render.h:66-88 | the domain keeps the requested range, its tiles are bounded by 64 and cover each pixel of the range exactly once |
| Ranges.GenerateDomainOfSize | render.h:90-94 | the `(width, height)` overload covers exactly the pixels of `[0, width) x [0, height)`, once each |
| Ranges.SubU32 | render.h:73-74 | at `TSize = unsigned int` an edge `max - min` wraps modulo 2^32: the plain difference when `min <= max`, that plus 2^32 otherwise |
| Ranges.UnsignedInvertedRangeRecursesForever | render.h:51-79 | as written at `unsigned int`: a range inverted by one column on x has a wrapped width of 2^32 - 1, is split along x at `midpoint(minx, minx - 1) == minx`, and its second half is the range itself, so `subdivide` recurses on it forever |
| Ranges.UnsignedAgreesOnWellFormed | render.h:38-79 | on a well-formed unsigned range nothing wraps: the size test and the split are those of the signed model |
| Ranges.SubdivideU32Guarded | render.h:70-85 | `subdivide` with inverted ranges emitted as they are: it terminates, covers each pixel exactly once, and the tiles of a well-formed unsigned range are unsigned and within 64 by the wrapped measure |
| Ranges.Tiles128x64 | render.h:72-80 | a 128 x 64 range becomes two 64 x 64 tiles |
| Ranges.Tiles128 | render.h:72-80 | a 128 x 128 range becomes four 64 x 64 tiles |
| Ranges.Tiles256x128 | render.h:72-80 | a 256 x 128 range becomes eight 64 x 64 tiles |
| Ranges.Tiles256 | render.h:72-80 | a 256 x 256 range becomes sixteen 64 x 64 tiles |
| Ranges.Domain256Has16Tiles | render.h:66-88 | the domain of a 256 x 256 image has exactly sixteen 64 x 64 tiles |
| Ranges.RangeQueueFromDomain | render.h:96-105 | the queue holds exactly the domain's ranges in the same order |
| TileIteration.RowVisitsCount | render.h:112-126 | one pass of the inner loop visits each `x` of `[minx, maxx)` in the row once and nothing else |
| TileIteration.RowsVisitsCount | render.h:110-127 | the nested loops visit each pixel of the rectangle once and nothing else, `w * h` visits in all |
| TileIteration.TileVisitsExactlyOnce | render.h:110-127 | the visit order of a tile contains each of its pixels exactly once, and no pixel outside it |
| TileIteration.TileVisitsRowMajor | render.h:110-127 | the `i`-th visit is `(minx + i % w, miny + i / w)`: row-major order |
| TileIteration.IterateOverTile | render.h:107-128 | the store callback is called in the row-major visit order of the tile, each with the colour the pixel function gives for the same `(x, y)`; the stores are exactly `TileStores` of the tile |
| TileIteration.TileStores | render.h:110-126 | reference result of the nested loops: one store per pixel in `TileVisits` order, coloured by the pixel function there |
| Scheduler.TakeRange | render.h:136-152 | empty queue: nothing taken, queue unchanged; otherwise the front is popped and, when fewer than `numThreads` ranges remain and both edges exceed 4, its first half is taken and its second half appended; else it is taken whole |
| Scheduler.TakeRangeConserves | render.h:141-151 | each pixel is covered by the taken range and the new queue as often as by the old queue; total areas match too |
| Scheduler.TakeRangeProgress | render.h:141-151 | the queue's pixel total never grows and strictly drops when the queue keeps its length, so draining terminates |
| Scheduler.TakeRangeKeepsTilesBounded | render.h:145-150 | on-demand splitting never makes a tile larger or inverted |
| Scheduler.StoreTakenTile | render.h:155-163 | storing a taken tile's pixels keeps "stored so far plus still queued equals the domain" true |
| Scheduler.TakeRangeWithin | render.h:141-151 | the range handed out lies inside the popped front range, and every range left in the queue lies inside a range of the old queue |
| Scheduler.DrainCovers | render.h:153-169 | the ranges `take_range` hands out until the queue is empty cover each pixel exactly as often as the initial queue |
| Scheduler.DrainWithin | render.h:141-169 | every range handed out lies inside one of the ranges the queue started with |
| Scheduler.DrainStep | render.h:157-160 | a successful `take_range` moves its range from the head of the remaining hand-outs to the end of those already handed out |
| Scheduler.DispatchedSnoc | render.h:160-162 | dispatching one more range appends `iterate_over_tile`'s stores for that range's `work_block` |
| Scheduler.DispatchedColours | render.h:160-162 | every dispatched store lies in a handed-out range `taken[j]` and carries the colour `tile_func(work_block(taken[j], domain.range))` gives for its pixel |
| Scheduler.DrainedDomain | render.h:153-169 | the hand-outs of a domain's queue cover each pixel as the domain's tiles do, lie inside those tiles, and their stores are coloured by their own blocks |
| Scheduler.TileStoresColoured | render.h:160-162 | the stores of one tile lie in that tile and carry the colours of `tile_func(block)`, so appending them keeps every store coloured by the block of some range containing it |
| Scheduler.ProcessDomain | render.h:153-169 | the ranges handed out are exactly the `take_range` sequence of the domain's queue; the stores are exactly `iterate_over_tile` on `work_block(taken[j], domain.range)` for each of them in turn; the hand-outs lie inside the domain's tiles and cover each pixel as often as they do, so each pixel is stored that often, with the colour of the block of the range that holds it |
| Scheduler.ParallelFor | render.h:130-179 | as written: with a reported concurrency above 0, the worker loop's hand-outs and stores, each pixel stored as often as the tiles cover it with the colour of its own range's block; with 0 nothing is handed out and nothing stored |
| Scheduler.ParallelForIntended | render.h:130-179 | with at least one worker, the hand-outs of a generated domain cover each of its pixels exactly once and lie inside its tiles; every pixel is stored exactly once, with the colour `tile_func` gives for it from the block of the handed-out range that holds it, and no other pixel is stored |
| Framebuffers.NewFramebuffer | framebuffer.h:10-13 | construction succeeds exactly when `width * height >= 0` and gives `width * height` pixels of the default colour |
| Framebuffers.PixelIndex | framebuffer.h:16 | `pixel(x, y)` designates element `x + y * width`, which lies inside a constructed framebuffer's vector for in-grid coordinates |
| Framebuffers.Pixel | framebuffer.h:14-17 | reading `pixel(x, y)` yields element `x + y * width`; `SetPixel` shows a write is read back |
| Framebuffers.SetPixel | framebuffer.h:14-17 | writing `pixel(x, y)` (index in range) sets that pixel and leaves every other element unchanged |
| Framebuffers.IndexInBounds | framebuffer.h:12-16 | in-grid coordinates give an index in `[0, width * height)` |
| Framebuffers.IndexInjective | framebuffer.h:16 | distinct coordinates with `0 <= x < width` give distinct indices |
| Framebuffers.SetPixelChangesOnlyThatPixel | framebuffer.h:14-17 | writing one in-grid pixel leaves every other in-grid pixel as it was |
| Framebuffers.DistinctTilesNeverAlias | framebuffer.h:14-17 | pixels of two different tiles of the domain generated for the framebuffer size address different elements |
| Framebuffers.ApplyStores | framebuffer.h:14-17 | a sequence of in-range writes keeps the framebuffer's dimensions and size |
| Framebuffers.StoredOnceKeepsColour | framebuffer.h:14-17 | a pixel written exactly once by in-grid writes ends up holding that write's colour, whatever the order of the others |
| Framebuffers.RenderedPixelHoldsTileColour | framebuffer.h:14-17 | after a render's stores are written, a pixel stored exactly once holds the colour `tile_func` computes for it from the block of a range containing it |
| Framebuffers.RenderedPixelHoldsDispatchedColour | framebuffer.h:14-17 | after a render's stores are written, a pixel stored exactly once holds the colour `tile_func` computes for it from the block of the handed-out range that contains it |

## Left out

- Threads, `std::mutex`, `scoped_lock` and `join` (render.h:134-178): the worker loop is a sequential drain; see above for why it gives the same stored pixels.
- The floating-point sub-pixel transform `iterate_over_tile` hands to `func` (render.h:114-123): the pixel function is an opaque parameter of `(x, y)`.
- `Length`, `Distance`, `Normalize`, `NormalizedWithLength` and `MakeOrthoNormalBase` (lucmath.h:133-179): they use `std::sqrt` and floating point.
- `MatrixTN` and `AffineT` (lucmath.h:37-88): storage-only unions with no operations.
- The float and double aliases (`Vector2`, `Double3`, `Bounds3`, ...): floating point. Scalar `Map` and `Lerp` are modelled over integers only.
- The union member aliases (`r`/`g`/`b`, `u`/`v`, `xy0`, `yzw2`, ...): layout punning; the model has one sequence of components with `X`/`Y`/`Z`/`W`.
- animation.h is not part of this model: it wraps `Lerp` with a float parameter.
- Integer width: components, coordinates and sizes are unbounded integers. Signed overflow is undefined behaviour in C++, so the model describes runs that do not overflow. `numeric_limits<T>::max()` becomes the parameter `maxT` of `DefaultBounds`.
- `std::vector::resize` of a huge but non-negative size (allocation failure) is not modelled; only a negative `width * height` makes `NewFramebuffer` fail.
- The scalar-operand forms of the `Bool*` operators (`t + s`, `s < u`, ...): they are the vector forms on the broadcast scalar, as `Vectors.ArithmeticScalarsBroadcast` and `Vectors.ComparisonScalarsBroadcast` show for the promoted integers, and are not written out separately.
- Unsigned `TSize`: the model's ranges are signed integers. With an unsigned `TSize` an inverted range wraps and `generate_parallel_for_domain` recurses forever; only that counterexample and a guarded variant are modelled (`Ranges.UnsignedInvertedRangeRecursesForever`, `Ranges.SubdivideU32Guarded`), not a full unsigned scheduler.
- Scheduler.TileStoresColoured: its conclusion names some range containing each pixel, not the tile itself; the handed-out tile is pinned by `Scheduler.DispatchedColours` and by `ProcessDomain`'s `Dispatched` ensures.
- LucMath.Cross: its own contract only fixes the dimension; the formula, orientation included, is pinned by `CrossIsDeterminant` (a dot product with every `c` equals the determinant with rows `a`, `b`, `c`), and `CrossProperties` and `CrossRightHanded` state its consequences.
- Framebuffers.SetPixel: `pixel(x, y)` has no bounds check, so an index outside the vector is a precondition rather than a modelled behaviour.

## Findings

| source | as written | input that shows it | evidently intended | confidence | as-written member | corrected member |
|---|---|---|---|---|---|---|
| lucmath_gen.h:415-424 | `operator-=` stores `t + u` | `t = (1, 1)`, `u = (1, 1)`: `t -= u` gives `(2, 2)` | store `t - u` | high (not executed) | Vectors.SubAssignIsNotSubtraction | Vectors.SubAssignIntended |
| lucmath_gen.h:425-434 | `operator*=` stores `t + u` | `(3, 3) *= (2, 2)` gives `(5, 5)` | store `t * u`, `(6, 6)` | high (not executed) | Vectors.MulAssignIsNotMultiplication | Vectors.MulAssignIntended |
| lucmath_gen.h:435-444 | `operator/=` stores `t + u` | `(6, 6) /= (2, 2)` gives `(8, 8)` | store `t / u`, `(3, 3)` | high (not executed) | Vectors.DivAssignIsNotDivision | Vectors.DivAssignIntended |
| render.h:51-79 | `subdivide` tests the wrapped edge `max - min`, which for an unsigned `TSize` is huge on an inverted range | `TSize = unsigned int`, range `[10, 9) x [0, 10)`: the width wraps to 2^32 - 1, the cut at `midpoint(10, 9) == 10` leaves the second half equal to the range, and `subdivide` never returns | an inverted range holds no pixel and is emitted as it is, as with a signed `TSize` | medium (not executed) | Ranges.UnsignedInvertedRangeRecursesForever | Ranges.SubdivideU32Guarded |
| render.h:135 | `parallel_for` starts `hardware_concurrency()` workers, a value the C++ standard allows to be 0 | a platform reporting 0: no worker starts and no pixel is rendered | start at least one worker | medium (not executed) | Scheduler.ParallelFor | Scheduler.ParallelForIntended |

The same defect as the first three rows is repeated for 3-vectors
(lucmath_gen.h:631-670) and 4-vectors (lucmath_gen.h:857-896); the model
shares one definition for all sizes.

=== FILE: framebuffer.dfy ===
/**
 * `framebuffer<TColor>` (framebuffer.h): a `width x height` grid of colours
 * stored row by row in one vector, addressed as `pixels[x + y * width]`
 * with no bounds check.
 */
module Framebuffers {
  import IntMath
  import opened Wrappers
  import opened Ranges
  import opened TileIteration
  import opened Scheduler

  datatype Framebuffer<C> = Framebuffer(width: int, height: int, pixels: seq<C>)

  /**
   * `framebuffer(width, height)`: `pixels.resize(width * height)` with the
   * colour type's default value `blank`. A negative product converts to a
   * huge unsigned size and the resize throws instead.
   */
  function NewFramebuffer<C>(width: int, height: int, blank: C): (r: Option<Framebuffer<C>>)
    ensures r.Some? <==> width * height >= 0
    ensures r.Some? ==>
      && r.value.width == width && r.value.height == height
      && |r.value.pixels| == width * height
      && forall i :: 0 <= i < |r.value.pixels| ==> r.value.pixels[i] == blank
  {
    var n := width * height;
    if n < 0 then None else Some(Framebuffer(width, height, seq(n, _ => blank)))
  }

  /** The element `pixel(x, y)` designates: in-grid coordinates of a constructed framebuffer address an element inside the vector. */
  function PixelIndex<C>(fb: Framebuffer<C>, x: int, y: int): (i: int)
    ensures |fb.pixels| == fb.width * fb.height && 0 <= x < fb.width && 0 <= y < fb.height ==> 0 <= i < |fb.pixels|
  {
    IndexInBounds(fb.width, fb.height, x, y);
    x + y * fb.width
  }

  /** Reading or writing `pixel(x, y)` is only defined when the index falls inside the vector. */
  predicate Addressable<C>(fb: Framebuffer<C>, x: int, y: int) {
    0 <= PixelIndex(fb, x, y) < |fb.pixels|
  }

  /** `pixel(x, y)` read: the element at `x + y * width`, with no check beyond the vector's own extent. */
  function Pixel<C>(fb: Framebuffer<C>, x: int, y: int): (c: C)
    requires Addressable(fb, x, y)
    ensures c == fb.pixels[x + y * fb.width]
  {
    fb.pixels[PixelIndex(fb, x, y)]
  }

  /** `pixel(x, y) = c`: exactly one element changes. */
  function SetPixel<C>(fb: Framebuffer<C>, x: int, y: int, c: C): (r: Framebuffer<C>)
    requires Addressable(fb, x, y)
    ensures r.width == fb.width && r.height == fb.height && |r.pixels| == |fb.pixels|
    ensures Pixel(r, x, y) == c
    ensures forall i :: 0 <= i < |fb.pixels| && i != PixelIndex(fb, x, y) ==> r.pixels[i] == fb.pixels[i]
  {
    fb.(pixels := fb.pixels[PixelIndex(fb, x, y) := c])
  }

  /** Coordinates inside the grid address an element inside the vector. */
  lemma IndexInBounds(width: int, height: int, x: int, y: int)
    ensures 0 <= x < width && 0 <= y < height ==> 0 <= x + y * width < width * height
  {
    if 0 <= x < width && 0 <= y < height {
      IntMath.ProductBounds(height - 1 - y, width);
      assert (height - 1 - y) * width == height * width - y * width - width;
      assert width * height == height * width;
      assert y * width >= 0;
    }
  }

  /** Within a row (`0 <= x < width`), distinct coordinates address distinct elements. */
  lemma IndexInjective(width: int, x1: int, y1: int, x2: int, y2: int)
    requires 0 <= x1 < width && 0 <= x2 < width
    requires x1 + y1 * width == x2 + y2 * width
    ensures x1 == x2 && y1 == y2
  {
    assert (y1 - y2) * width == x2 - x1;
    IntMath.ProductBounds(y1 - y2, width);
  }

  /** In a framebuffer built by the constructor, writing one in-grid pixel leaves every other in-grid pixel as it was. */
  lemma SetPixelChangesOnlyThatPixel<C>(fb: Framebuffer<C>, x: int, y: int, c: C, x2: int, y2: int)
    requires |fb.pixels| == fb.width * fb.height
    requires 0 <= x < fb.width && 0 <= y < fb.height
    requires 0 <= x2 < fb.width && 0 <= y2 < fb.height
    requires (x2, y2) != (x, y)
    ensures Addressable(fb, x, y) && Addressable(fb, x2, y2)
    ensures Pixel(SetPixel(fb, x, y, c), x2, y2) == Pixel(fb, x2, y2)
  {
    IndexInBounds(fb.width, fb.height, x, y);
    IndexInBounds(fb.width, fb.height, x2, y2);
    if PixelIndex(fb, x, y) == PixelIndex(fb, x2, y2) {
      IndexInjective(fb.width, x, y, x2, y2);
    }
  }

  /** Two positions of a tile list that both contain a pixel make it covered at least twice. */
  lemma {:induction false} TwoTilesCountTwice(ts: seq<Range>, i: int, j: int, x: int, y: int)
    requires 0 <= i < j < |ts|
    requires Contains(ts[i], x, y) && Contains(ts[j], x, y)
    ensures Count(ts, x, y) >= 2
  {
    if i > 0 {
      TwoTilesCountTwice(ts[1..], i - 1, j - 1, x, y);
    } else {
      CountAtLeastOne(ts[1..], j - 1, x, y);
    }
  }

  lemma {:induction false} CountAtLeastOne(ts: seq<Range>, j: int, x: int, y: int)
    requires 0 <= j < |ts| && Contains(ts[j], x, y)
    ensures Count(ts, x, y) >= 1
  {
    if j > 0 {
      CountAtLeastOne(ts[1..], j - 1, x, y);
    }
  }

  /**
   * Two different tiles of the domain generated for a framebuffer's size
   * never address the same element, so workers writing different tiles
   * never write the same pixel.
   */
  lemma DistinctTilesNeverAlias<C>(fb: Framebuffer<C>, i: int, j: int, x1: int, y1: int, x2: int, y2: int)
    requires |fb.pixels| == fb.width * fb.height
    requires var d := GenerateDomainOfSize(fb.width, fb.height);
      0 <= i < |d.ranges| && 0 <= j < |d.ranges| && i != j
      && Contains(d.ranges[i], x1, y1) && Contains(d.ranges[j], x2, y2)
    ensures Addressable(fb, x1, y1) && Addressable(fb, x2, y2)
    ensures PixelIndex(fb, x1, y1) != PixelIndex(fb, x2, y2)
  {
    var d := GenerateDomainOfSize(fb.width, fb.height);
    CountAtLeastOne(d.ranges, i, x1, y1);
    CountAtLeastOne(d.ranges, j, x2, y2);
    IndexInBounds(fb.width, fb.height, x1, y1);
    IndexInBounds(fb.width, fb.height, x2, y2);
    if PixelIndex(fb, x1, y1) == PixelIndex(fb, x2, y2) {
      IndexInjective(fb.width, x1, y1, x2, y2);
      if i < j {
        TwoTilesCountTwice(d.ranges, i, j, x1, y1);
      } else {
        TwoTilesCountTwice(d.ranges, j, i, x1, y1);
      }
    }
  }

  /** The store callback that writes each computed colour into the framebuffer, applied in call order. */
  function ApplyStores<C>(fb: Framebuffer<C>, stores: seq<Store<C>>): (r: Framebuffer<C>)
    requires forall k :: 0 <= k < |stores| ==> Addressable(fb, stores[k].x, stores[k].y)
    ensures r.width == fb.width && r.height == fb.height && |r.pixels| == |fb.pixels|
    decreases |stores|
  {
    if |stores| == 0 then fb
    else
      var last := stores[|stores| - 1];
      var before := ApplyStores(fb, stores[..|stores| - 1]);
      assert Addressable(fb, last.x, last.y);
      SetPixel(before, last.x, last.y, last.color)
  }

  /** Stores whose coordinates lie in the grid of a constructed framebuffer are all addressable. */
  lemma InGridStoresAddressable<C>(fb: Framebuffer<C>, stores: seq<Store<C>>)
    requires |fb.pixels| == fb.width * fb.height
    requires forall m :: 0 <= m < |stores| ==> 0 <= stores[m].x < fb.width && 0 <= stores[m].y < fb.height
    ensures forall m :: 0 <= m < |stores| ==> Addressable(fb, stores[m].x, stores[m].y)
  {
    forall m | 0 <= m < |stores|
      ensures Addressable(fb, stores[m].x, stores[m].y)
    {
      IndexInBounds(fb.width, fb.height, stores[m].x, stores[m].y);
    }
  }

  /** A point occurring once, before the last position, still occurs once when the last element is dropped, and is not the last element. */
  lemma OnceBeforeLast<T>(ps: seq<T>, k: int)
    requires 0 <= k < |ps| - 1
    requires multiset(ps)[ps[k]] == 1
    ensures ps[|ps| - 1] != ps[k]
    ensures multiset(ps[..|ps| - 1])[ps[k]] == 1
  {
    var n := |ps| - 1;
    assert ps == ps[..n] + [ps[n]];
    assert multiset(ps) == multiset(ps[..n]) + multiset{ps[n]};
    assert ps[..n][k] == ps[k];
    assert multiset(ps[..n])[ps[k]] >= 1;
  }

  /**
   * A pixel stored exactly once ends up holding the colour of that store,
   * whatever order the other, in-grid pixels were stored in.
   */
  lemma {:induction false} StoredOnceKeepsColour<C>(fb: Framebuffer<C>, stores: seq<Store<C>>, k: int)
    requires |fb.pixels| == fb.width * fb.height
    requires forall m :: 0 <= m < |stores| ==> 0 <= stores[m].x < fb.width && 0 <= stores[m].y < fb.height
    requires 0 <= k < |stores|
    requires multiset(Coords(stores))[(stores[k].x, stores[k].y)] == 1
    ensures forall m :: 0 <= m < |stores| ==> Addressable(fb, stores[m].x, stores[m].y)
    ensures Pixel(ApplyStores(fb, stores), stores[k].x, stores[k].y) == stores[k].color
    decreases |stores|
  {
    InGridStoresAddressable(fb, stores);
    var n := |stores| - 1;
    if k < n {
      var prefix := stores[..n];
      var ps := Coords(stores);
      OnceBeforeLast(ps, k);
      assert Coords(prefix) == ps[..n];
      StoredOnceKeepsColour(fb, prefix, k);
      var before := ApplyStores(fb, prefix);
      assert ApplyStores(fb, stores) == SetPixel(before, stores[n].x, stores[n].y, stores[n].color);
      SetPixelChangesOnlyThatPixel(before, stores[n].x, stores[n].y, stores[n].color, stores[k].x, stores[k].y);
    }
  }

  /**
   * In a framebuffer written by the stores of a render, a pixel stored
   * exactly once holds the colour the tile function computes for it from
   * the block of some range containing it.
   */
  lemma RenderedPixelHoldsTileColour<C>(fb: Framebuffer<C>, range: Range, tileFunc: WorkBlock -> ((int, int) -> C), stores: seq<Store<C>>, k: int)
    requires |fb.pixels| == fb.width * fb.height
    requires forall m :: 0 <= m < |stores| ==> 0 <= stores[m].x < fb.width && 0 <= stores[m].y < fb.height
    requires AllColouredByTile(stores, range, tileFunc)
    requires 0 <= k < |stores|
    requires multiset(Coords(stores))[(stores[k].x, stores[k].y)] == 1
    ensures forall m :: 0 <= m < |stores| ==> Addressable(fb, stores[m].x, stores[m].y)
    ensures exists t: Range :: (Contains(t, stores[k].x, stores[k].y)
      && Pixel(ApplyStores(fb, stores), stores[k].x, stores[k].y) == tileFunc(WorkBlock(t, range))(stores[k].x, stores[k].y))
  {
    StoredOnceKeepsColour(fb, stores, k);
    assert ColouredByTile(stores[k], range, tileFunc);
  }

  /**
   * In a framebuffer written by the stores of a render, a pixel stored
   * exactly once holds the colour the tile function computes for it from
   * the block of the dispatched tile that contains it.
   */
  lemma RenderedPixelHoldsDispatchedColour<C>(fb: Framebuffer<C>, range: Range, tileFunc: WorkBlock -> ((int, int) -> C), taken: seq<Range>, stores: seq<Store<C>>, k: int)
    requires |fb.pixels| == fb.width * fb.height
    requires forall m :: 0 <= m < |stores| ==> 0 <= stores[m].x < fb.width && 0 <= stores[m].y < fb.height
    requires AllColouredByTaken(stores, taken, range, tileFunc)
    requires 0 <= k < |stores|
    requires multiset(Coords(stores))[(stores[k].x, stores[k].y)] == 1
    ensures exists j :: (0 <= j < |taken| && Contains(taken[j], stores[k].x, stores[k].y)
      && Pixel(ApplyStores(fb, stores), stores[k].x, stores[k].y) == tileFunc(WorkBlock(taken[j], range))(stores[k].x, stores[k].y))
  {
    StoredOnceKeepsColour(fb, stores, k);
    assert ColouredByTaken(stores[k], taken, range, tileFunc);
  }
}

=== FILE: intmath.dfy ===
/**
 * The scalar integer operations the C++ code leans on, written out because
 * Dafny's `int` is unbounded and its `/` is Euclidean: C++ integer division
 * truncates toward zero, and `std::midpoint` rounds toward its first argument.
 */
module IntMath {

  /** Largest value of the 32-bit signed element type of `Int2/3/4`. */
  const INT32_MAX: int := 0x7fff_ffff

  function Abs(a: int): (r: nat)
    ensures r == a || r == -a
  {
    if a < 0 then -a else a
  }

  /** C++ `a / b` on integers: the quotient truncated toward zero. */
  function TruncDiv(a: int, b: int): (q: int)
    requires b != 0
    ensures Abs(q) == Abs(a) / Abs(b)
    ensures (a >= 0) == (b > 0) ==> q >= 0
    ensures (a >= 0) != (b > 0) ==> q <= 0
  {
    var m: int := NatDiv(Abs(a), Abs(b));
    if (a >= 0) == (b > 0) then m else -m
  }

  /** The remainder that goes with `TruncDiv`: it has the sign of the dividend. */
  lemma TruncDivRemainder(a: int, b: int)
    requires b != 0
    ensures var r := a - TruncDiv(a, b) * b;
      Abs(r) < Abs(b) && (r == 0 || (r > 0) == (a > 0))
  {
    var n: int, d: int := Abs(a), Abs(b);
    var m: int := n / d;
    assert n == m * d + n % d;
    var q := TruncDiv(a, b);
    if a >= 0 {
      assert a == n;
      if b > 0 { assert q * b == m * d; } else { assert q * b == (-m) * (-d) == m * d; }
    } else {
      assert a == -n;
      if b > 0 { assert q * b == (-m) * d == -(m * d); } else { assert q * b == m * (-d) == -(m * d); }
    }
  }

  /** Dividing an exact multiple gives back the factor, whatever the signs. */
  lemma TruncDivOfMultiple(a: int, b: int)
    requires b != 0
    ensures TruncDiv(a * b, b) == a
  {
    var n: int, d: int := Abs(a), Abs(b);
    assert Abs(a * b) == n * d by {
      if a < 0 && b < 0 { assert a * b == (-a) * (-b); }
      else if a < 0 { assert a * b == -((-a) * b); }
      else if b < 0 { assert a * b == -(a * (-b)); }
    }
    assert (n * d) / d == n by {
      MultipleDivides(n, d);
    }
    if a > 0 {
      assert a * b > 0 <==> b > 0;
    } else if a < 0 {
      assert a * b > 0 <==> b < 0;
    }
  }

  lemma MultipleDivides(n: int, d: int)
    requires n >= 0 && d > 0
    ensures (n * d) / d == n
  {
    var q, r := (n * d) / d, (n * d) % d;
    assert n * d == q * d + r;
    assert (n - q) * d == r;
    ProductBounds(n - q, d);
  }

  lemma ProductBounds(k: int, d: int)
    requires d > 0
    ensures k >= 1 ==> k * d >= d
    ensures k <= -1 ==> k * d <= -d
  {
  }

  /** Division of naturals, kept apart so the solver sees a `nat` result. */
  function NatDiv(n: nat, d: nat): (m: nat)
    requires d > 0
    ensures m == n / d
  {
    n / d
  }

  /**
   * `std::midpoint(a, b)` on integers: half-way between `a` and `b`, rounded
   * toward `a` when `a + b` is odd, and never overflowing.
   */
  function Midpoint(a: int, b: int): (m: int)
    ensures a <= b ==> a <= m <= b && a + b - 1 <= 2 * m <= a + b
    ensures b <= a ==> b <= m <= a && a + b <= 2 * m <= a + b + 1
  {
    if a <= b then a + (b - a) / 2 else a - (a - b) / 2
  }

  /** `std::min(a, b)`: `b` when `b < a`, otherwise `a`. */
  function Min(a: int, b: int): (r: int)
    ensures r <= a && r <= b
    ensures r == a || r == b
  {
    if b < a then b else a
  }

  /** `std::max(a, b)`: `b` when `a < b`, otherwise `a`. */
  function Max(a: int, b: int): (r: int)
    ensures r >= a && r >= b
    ensures r == a || r == b
  {
    if a < b then b else a
  }
}

=== FILE: lucmath.dfy ===
/**
 * The free functions of `luc` (lucmath.h) over integer and boolean vectors:
 * `Collapse`, `Dot`, `LengthSquared`, `DistanceSquared`, `Cross`, `Min`,
 * `Max`, `Map`, `Lerp`, `Clamp`, `AllTrue`, `AnyTrue`, and the axis-aligned
 * box `Bounds`.
 */
module LucMath {
  import IntMath
  import opened Vectors

  // ---------------------------------------------------------------------
  // Collapse and the reductions built on it

  /** The loop `result = E[0]; for i in 1..N: result = Op(result, E[i])`, continued from `acc`. */
  function FoldFrom<T>(op: (T, T) -> T, acc: T, s: seq<T>): T
    decreases |s|
  {
    if |s| == 0 then acc else FoldFrom(op, op(acc, s[0]), s[1..])
  }

  /** Reference left-associated combination: the last element is combined last. */
  function LeftFold<T>(op: (T, T) -> T, s: seq<T>): T
    requires |s| >= 1
  {
    if |s| == 1 then s[0] else op(LeftFold(op, s[..|s| - 1]), s[|s| - 1])
  }

  lemma {:induction false} FoldFromIsLeftFold<T>(op: (T, T) -> T, acc: T, s: seq<T>)
    ensures FoldFrom(op, acc, s) == LeftFold(op, [acc] + s)
    decreases |s|
  {
    if |s| > 0 {
      FoldFromSnoc(op, acc, s[..|s| - 1], s[|s| - 1]);
      assert s == s[..|s| - 1] + [s[|s| - 1]];
      FoldFromIsLeftFold(op, acc, s[..|s| - 1]);
      assert ([acc] + s)[..|s|] == [acc] + s[..|s| - 1];
    }
  }

  /** Folding one more element at the end combines it last. */
  lemma {:induction false} FoldFromSnoc<T>(op: (T, T) -> T, acc: T, s: seq<T>, z: T)
    ensures FoldFrom(op, acc, s + [z]) == op(FoldFrom(op, acc, s), z)
    decreases |s|
  {
    if |s| > 0 {
      assert (s + [z])[1..] == s[1..] + [z];
      FoldFromSnoc(op, op(acc, s[0]), s[1..], z);
    }
  }

  /**
   * `Collapse<Op>(a)`: combines the components with `op`, innermost on the
   * left. Whatever N, it is the left-associated combination of the components.
   */
  function Collapse<T>(op: (T, T) -> T, a: Vector<T>): (r: T)
    requires |a.E| >= 2
    ensures r == LeftFold(op, a.E)
  {
    var E := a.E;
    if |E| == 2 then
      assert E[..1] == [E[0]];
      op(a.X(), a.Y())
    else if |E| == 3 then
      assert E[..2][..1] == [E[0]];
      assert LeftFold(op, E[..2]) == op(E[0], E[1]);
      op(op(a.X(), a.Y()), a.Z())
    else if |E| == 4 then
      assert E[..3][..2][..1] == [E[0]];
      assert LeftFold(op, E[..3][..2]) == op(E[0], E[1]);
      assert LeftFold(op, E[..3]) == op(op(E[0], E[1]), E[2]);
      op(op(op(a.X(), a.Y()), a.Z()), a.W())
    else
      FoldFromIsLeftFold(op, E[0], E[1..]);
      assert [E[0]] + E[1..] == E;
      FoldFrom(op, E[0], E[1..])
  }

  function Plus(x: int, y: int): int { x + y }

  /** Reference sum, taken from the front. */
  function Sum(s: seq<int>): int
  {
    if |s| == 0 then 0 else s[0] + Sum(s[1..])
  }

  lemma {:induction false} SumSnoc(s: seq<int>, z: int)
    ensures Sum(s + [z]) == Sum(s) + z
  {
    if |s| > 0 {
      assert (s + [z])[1..] == s[1..] + [z];
      SumSnoc(s[1..], z);
    }
  }

  lemma {:induction false} LeftFoldPlusIsSum(s: seq<int>)
    requires |s| >= 1
    ensures LeftFold(Plus, s) == Sum(s)
  {
    if |s| > 1 {
      LeftFoldPlusIsSum(s[..|s| - 1]);
      SumSnoc(s[..|s| - 1], s[|s| - 1]);
      assert s[..|s| - 1] + [s[|s| - 1]] == s;
    }
  }

  /** With the default `std::plus`, `Collapse` is the sum of the components. */
  lemma CollapsePlusIsSum(a: Vector<int>)
    requires |a.E| >= 2
    ensures Collapse(Plus, a) == Sum(a.E)
  {
    LeftFoldPlusIsSum(a.E);
  }

  /** `Dot(a, b) = Collapse(a * b)`: the sum of the componentwise products. */
  function Dot(a: Vector<int>, b: Vector<int>): (r: int)
    requires SameSize(a, b)
    ensures r == Sum(Mul(a, b).E)
  {
    CollapsePlusIsSum(Mul(a, b));
    Collapse(Plus, Mul(a, b))
  }

  function LengthSquared(a: Vector<int>): (r: int)
    requires HasOperators(a)
    ensures r == Sum(Mul(a, a).E)
  {
    Dot(a, a)
  }

  function DistanceSquared(a: Vector<int>, b: Vector<int>): (r: int)
    requires SameSize(a, b)
    ensures r == Sum(Mul(Sub(a, b), Sub(a, b)).E)
  {
    LengthSquared(Sub(a, b))
  }

  /** A sum of squares is never negative, and is zero exactly when every term is. */
  lemma {:induction false} SumOfSquares(s: seq<int>, t: seq<int>)
    requires |s| == |t|
    requires forall i :: 0 <= i < |s| ==> t[i] == s[i] * s[i]
    ensures Sum(t) >= 0
    ensures Sum(t) == 0 <==> forall i :: 0 <= i < |s| ==> s[i] == 0
  {
    if |s| > 0 {
      SumOfSquares(s[1..], t[1..]);
      assert s[0] * s[0] >= 0;
      assert s[0] != 0 ==> s[0] * s[0] > 0;
      assert forall i :: 1 <= i < |s| ==> s[i] == s[1..][i - 1];
    }
  }

  lemma DotSymmetric(a: Vector<int>, b: Vector<int>)
    requires SameSize(a, b)
    ensures Dot(a, b) == Dot(b, a)
  {
    assert Mul(a, b).E == Mul(b, a).E;
  }

  /** `LengthSquared` is non-negative and vanishes only on the zero vector. */
  lemma LengthSquaredProperties(a: Vector<int>)
    requires HasOperators(a)
    ensures LengthSquared(a) >= 0
    ensures LengthSquared(a) == 0 <==> a == Zero(|a.E|)
  {
    SumOfSquares(a.E, Mul(a, a).E);
    if forall i :: 0 <= i < |a.E| ==> a.E[i] == 0 {
      assert a.E == Zero(|a.E|).E;
    }
  }

  /** `DistanceSquared` is symmetric, non-negative and zero exactly between equal vectors. */
  lemma DistanceSquaredProperties(a: Vector<int>, b: Vector<int>)
    requires SameSize(a, b)
    ensures DistanceSquared(a, b) == DistanceSquared(b, a)
    ensures DistanceSquared(a, b) >= 0
    ensures DistanceSquared(a, b) == 0 <==> a == b
  {
    var d, e := Sub(a, b), Sub(b, a);
    forall i | 0 <= i < |a.E|
      ensures Mul(d, d).E[i] == Mul(e, e).E[i]
    {
      assert e.E[i] == -d.E[i];
      assert (-d.E[i]) * (-d.E[i]) == d.E[i] * d.E[i];
    }
    assert Mul(d, d).E == Mul(e, e).E;
    LengthSquaredProperties(d);
    if d == Zero(|a.E|) {
      assert forall i :: 0 <= i < |a.E| ==> a.E[i] - b.E[i] == 0;
      assert a.E == b.E;
    }
    if a == b {
      assert Sub(a, b).E == Zero(|a.E|).E;
    }
  }

  // ---------------------------------------------------------------------
  // Cross product

  function Cross(a: Vector<int>, b: Vector<int>): (r: Vector<int>)
    requires |a.E| == 3 && |b.E| == 3
    ensures |r.E| == 3
  {
    Vector3(
      a.Y() * b.Z() - a.Z() * b.Y(),
      a.Z() * b.X() - a.X() * b.Z(),
      a.X() * b.Y() - a.Y() * b.X())
  }

  /** The components of `a x b`, multiplied by those of `a` and summed, cancel. */
  lemma TripleProductFirst(a1: int, a2: int, a3: int, b1: int, b2: int, b3: int)
    ensures (a2 * b3 - a3 * b2) * a1 + (a3 * b1 - a1 * b3) * a2 + (a1 * b2 - a2 * b1) * a3 == 0
  {
    assert (a2 * b3 - a3 * b2) * a1 == a1 * a2 * b3 - a1 * a3 * b2;
    assert (a3 * b1 - a1 * b3) * a2 == a2 * a3 * b1 - a1 * a2 * b3;
    assert (a1 * b2 - a2 * b1) * a3 == a1 * a3 * b2 - a2 * a3 * b1;
  }

  /** The components of `a x b`, multiplied by those of `b` and summed, cancel. */
  lemma TripleProductSecond(a1: int, a2: int, a3: int, b1: int, b2: int, b3: int)
    ensures (a2 * b3 - a3 * b2) * b1 + (a3 * b1 - a1 * b3) * b2 + (a1 * b2 - a2 * b1) * b3 == 0
  {
    assert (a2 * b3 - a3 * b2) * b1 == a2 * b1 * b3 - a3 * b1 * b2;
    assert (a3 * b1 - a1 * b3) * b2 == a3 * b1 * b2 - a1 * b2 * b3;
    assert (a1 * b2 - a2 * b1) * b3 == a1 * b2 * b3 - a2 * b1 * b3;
  }

  /** `a x b` is orthogonal to `a`. */
  lemma CrossOrthogonalFirst(a: Vector<int>, b: Vector<int>)
    requires |a.E| == 3 && |b.E| == 3
    ensures Dot(Cross(a, b), a) == 0
  {
    var c := Cross(a, b);
    assert Dot(c, a) == c.X() * a.X() + c.Y() * a.Y() + c.Z() * a.Z();
    TripleProductFirst(a.X(), a.Y(), a.Z(), b.X(), b.Y(), b.Z());
  }

  /** `a x b` is orthogonal to `b`. */
  lemma CrossOrthogonalSecond(a: Vector<int>, b: Vector<int>)
    requires |a.E| == 3 && |b.E| == 3
    ensures Dot(Cross(a, b), b) == 0
  {
    var c := Cross(a, b);
    assert Dot(c, b) == c.X() * b.X() + c.Y() * b.Y() + c.Z() * b.Z();
    TripleProductSecond(a.X(), a.Y(), a.Z(), b.X(), b.Y(), b.Z());
  }

  /** The determinant of the 3 x 3 matrix with rows `a`, `b`, `c`, by the rule of Sarrus. */
  function Det3(a: Vector<int>, b: Vector<int>, c: Vector<int>): int
    requires |a.E| == 3 && |b.E| == 3 && |c.E| == 3
  {
    a.X() * b.Y() * c.Z() + a.Y() * b.Z() * c.X() + a.Z() * b.X() * c.Y()
    - a.Z() * b.Y() * c.X() - a.Y() * b.X() * c.Z() - a.X() * b.Z() * c.Y()
  }

  /**
   * `a x b` dotted with any `c` is the determinant with rows `a`, `b`, `c`.
   * Taking `c` as each unit axis fixes every component, sign included.
   */
  lemma CrossIsDeterminant(a: Vector<int>, b: Vector<int>, c: Vector<int>)
    requires |a.E| == 3 && |b.E| == 3 && |c.E| == 3
    ensures Dot(Cross(a, b), c) == Det3(a, b, c)
  {
    var d := Cross(a, b);
    assert Dot(d, c) == d.X() * c.X() + d.Y() * c.Y() + d.Z() * c.Z();
  }

  /** Two 3-vectors with the same components are equal. */
  lemma SameComponents3(u: Vector<int>, v: Vector<int>)
    requires |u.E| == 3 && |v.E| == 3
    requires u.X() == v.X() && u.Y() == v.Y() && u.Z() == v.Z()
    ensures u == v
  {
    assert u.E == [u.X(), u.Y(), u.Z()];
    assert v.E == [v.X(), v.Y(), v.Z()];
  }

  /** The unit axes form a right-handed system: `x x y == z`, `y x z == x`, `z x x == y`. */
  lemma CrossRightHanded()
    ensures Cross(Vector3(1, 0, 0), Vector3(0, 1, 0)) == Vector3(0, 0, 1)
    ensures Cross(Vector3(0, 1, 0), Vector3(0, 0, 1)) == Vector3(1, 0, 0)
    ensures Cross(Vector3(0, 0, 1), Vector3(1, 0, 0)) == Vector3(0, 1, 0)
  {
    var ex, ey, ez := Vector3(1, 0, 0), Vector3(0, 1, 0), Vector3(0, 0, 1);
    SameComponents3(Cross(ex, ey), ez);
    SameComponents3(Cross(ey, ez), ex);
    SameComponents3(Cross(ez, ex), ey);
  }

  /** The cross product is anti-commutative, vanishes on equal arguments and is orthogonal to both. */
  lemma CrossProperties(a: Vector<int>, b: Vector<int>)
    requires |a.E| == 3 && |b.E| == 3
    ensures Cross(b, a) == Neg(Cross(a, b))
    ensures Cross(a, a) == Zero(3)
    ensures Dot(Cross(a, b), a) == 0
    ensures Dot(Cross(a, b), b) == 0
  {
    assert Cross(b, a).E == Neg(Cross(a, b)).E;
    assert Cross(a, a).E == Zero(3).E;
    CrossOrthogonalFirst(a, b);
    CrossOrthogonalSecond(a, b);
  }

  // ---------------------------------------------------------------------
  // Componentwise extremes

  /** `Min(t, u)`: in every component the smaller of the two, as `std::min` picks it. */
  function Min(t: Vector<int>, u: Vector<int>): (r: Vector<int>)
    requires |t.E| == |u.E|
    ensures |r.E| == |t.E|
    ensures forall i :: 0 <= i < |t.E| ==>
      r.E[i] <= t.E[i] && r.E[i] <= u.E[i] && (r.E[i] == t.E[i] || r.E[i] == u.E[i])
  {
    Zip(t, u, IntMath.Min)
  }

  /** `Max(t, u)`: in every component the larger of the two, as `std::max` picks it. */
  function Max(t: Vector<int>, u: Vector<int>): (r: Vector<int>)
    requires |t.E| == |u.E|
    ensures |r.E| == |t.E|
    ensures forall i :: 0 <= i < |t.E| ==>
      r.E[i] >= t.E[i] && r.E[i] >= u.E[i] && (r.E[i] == t.E[i] || r.E[i] == u.E[i])
  {
    Zip(t, u, IntMath.Max)
  }

  /** Stated with the vector comparisons: `Min(t,u) <= t, u <= Max(t,u)` in every component. */
  lemma MinMaxOrder(t: Vector<int>, u: Vector<int>)
    requires SameSize(t, u)
    ensures AllTrue(Le(Min(t, u), t)) && AllTrue(Le(Min(t, u), u))
    ensures AllTrue(Le(t, Max(t, u))) && AllTrue(Le(u, Max(t, u)))
    ensures Min(t, u) == Min(u, t) && Max(t, u) == Max(u, t)
    ensures Min(t, t) == t && Max(t, t) == t
  {
    assert Min(t, u).E == Min(u, t).E;
    assert Max(t, u).E == Max(u, t).E;
    assert Min(t, t).E == t.E;
    assert Max(t, t).E == t.E;
  }

  // ---------------------------------------------------------------------
  // Remapping and interpolation

  /**
   * Scalar `Map`: the linear remap of `x` from `[inMin, inMax]` onto
   * `[outMin, outMax]`. Under truncating division the end points still map
   * exactly onto each other.
   */
  function Map(x: int, inMin: int, inMax: int, outMin: int, outMax: int): (r: int)
    requires inMax != inMin
    ensures x == inMin ==> r == outMin
    ensures x == inMax ==> r == outMax
  {
    IntMath.TruncDivOfMultiple(outMax - outMin, inMax - inMin);
    assert (inMax - inMin) * (outMax - outMin) == (outMax - outMin) * (inMax - inMin);
    IntMath.TruncDiv((x - inMin) * (outMax - outMin), inMax - inMin) + outMin
  }

  /** An input inside an increasing input interval lands inside the output interval. */
  lemma MapStaysInRange(x: int, inMin: int, inMax: int, outMin: int, outMax: int)
    requires inMin < inMax && inMin <= x <= inMax && outMin <= outMax
    ensures outMin <= Map(x, inMin, inMax, outMin, outMax) <= outMax
  {
    var d, k := inMax - inMin, outMax - outMin;
    var n := (x - inMin) * k;
    MulBetween(x - inMin, d, k);
    FloorDivBelow(n, d, k);
  }

  lemma MulBetween(a: int, d: int, k: int)
    requires 0 <= a <= d && k >= 0
    ensures 0 <= a * k <= d * k
  {
  }

  /** Truncating division of `n` in `[0, d*k]` by a positive `d` stays in `[0, k]`. */
  lemma FloorDivBelow(n: int, d: int, k: int)
    requires d > 0 && k >= 0 && 0 <= n <= d * k
    ensures 0 <= IntMath.TruncDiv(n, d) <= k
  {
    var q := IntMath.TruncDiv(n, d);
    IntMath.TruncDivRemainder(n, d);
    assert q * d <= n;
    IntMath.ProductBounds(q - k, d);
    assert (q - k) * d == q * d - k * d;
  }

  /**
   * Vector `Map`, with a scalar `x`: `(x - inMin) * (outMax - outMin) / (inMax - inMin) + outMin`
   * built from the vector operators. It is the scalar `Map` in every component.
   */
  function MapVector(x: int, inMin: Vector<int>, inMax: Vector<int>, outMin: Vector<int>, outMax: Vector<int>): (r: Vector<int>)
    requires SameSize(inMin, inMax) && SameSize(inMin, outMin) && SameSize(inMin, outMax)
    requires NoZero(Sub(inMax, inMin))
    ensures |r.E| == |inMin.E|
    ensures forall i :: 0 <= i < |inMin.E| ==>
      (inMax.E[i] != inMin.E[i] && r.E[i] == Map(x, inMin.E[i], inMax.E[i], outMin.E[i], outMax.E[i]))
  {
    Add(Div(Mul(ScalarSub(x, inMin), Sub(outMax, outMin)), Sub(inMax, inMin)), outMin)
  }

  /**
   * Scalar `Lerp(x, a, b) = (1 - x) * a + x * b`: it reproduces its end
   * points and is constant between equal end points.
   */
  function Lerp(x: int, a: int, b: int): (r: int)
    ensures x == 0 ==> r == a
    ensures x == 1 ==> r == b
    ensures a == b ==> r == a
    ensures r == a + x * (b - a)
  {
    (1 - x) * a + x * b
  }

  /** Vector `Lerp`, with a scalar `x`, built from the scalar-vector operators: the scalar `Lerp` in every component. */
  function LerpVector(x: int, a: Vector<int>, b: Vector<int>): (r: Vector<int>)
    requires SameSize(a, b)
    ensures |r.E| == |a.E|
    ensures forall i :: 0 <= i < |a.E| ==> r.E[i] == Lerp(x, a.E[i], b.E[i])
  {
    Add(ScalarMul(1 - x, a), ScalarMul(x, b))
  }

  /** `Clamp(x, lo, hi)`: `lo` below the interval, `hi` above it, `x` inside. */
  function Clamp(x: int, lo: int, hi: int): (r: int)
    ensures lo <= hi ==> lo <= r <= hi
    ensures lo <= x <= hi ==> r == x
  {
    if x < lo then lo else if x > hi then hi else x
  }

  /** On a proper interval `Clamp` agrees with `max(lo, min(x, hi))` and is idempotent. */
  lemma ClampProperties(x: int, lo: int, hi: int)
    requires lo <= hi
    ensures Clamp(x, lo, hi) == IntMath.Max(lo, IntMath.Min(x, hi))
    ensures Clamp(Clamp(x, lo, hi), lo, hi) == Clamp(x, lo, hi)
  {
  }

  // ---------------------------------------------------------------------
  // Reductions of boolean vectors

  /** `AllTrue`: the fold `(v && ...)` over the components; true for no components. */
  function AllTrue(t: Vector<bool>): (r: bool)
    ensures r <==> forall i :: 0 <= i < |t.E| ==> t.E[i]
    decreases |t.E|
  {
    if |t.E| == 0 then true
    else
      var rest := AllTrue(Vector(t.E[1..]));
      assert forall i :: 1 <= i < |t.E| ==> t.E[i] == t.E[1..][i - 1];
      t.E[0] && rest
  }

  /** `AnyTrue`: the fold `(v || ...)` over the components; false for no components. */
  function AnyTrue(t: Vector<bool>): (r: bool)
    ensures r <==> exists i :: 0 <= i < |t.E| && t.E[i]
    decreases |t.E|
  {
    if |t.E| == 0 then false
    else
      var rest := AnyTrue(Vector(t.E[1..]));
      assert forall i :: 1 <= i < |t.E| ==> t.E[i] == t.E[1..][i - 1];
      t.E[0] || rest
  }

  /** Componentwise equality is all-true exactly for equal vectors, and `!=` is its complement. */
  lemma EqualityReductions<T>(t: Vector<T>, u: Vector<T>)
    requires SameSize(t, u)
    ensures AllTrue(Eq(t, u)) <==> t == u
    ensures AnyTrue(Ne(t, u)) <==> t != u
  {
    if AllTrue(Eq(t, u)) {
      assert t.E == u.E;
    }
    if !AnyTrue(Ne(t, u)) {
      assert t.E == u.E;
    }
  }

  // ---------------------------------------------------------------------
  // Bounds

  /** `Bounds<T, N>`: an axis-aligned box held as its componentwise minimum and maximum corners. */
  datatype Bounds = Bounds(min: Vector<int>, max: Vector<int>)

  predicate WellSized(b: Bounds) {
    |b.min.E| == |b.max.E|
  }

  /** The point lies in the box, in every component. */
  predicate Contains(b: Bounds, p: Vector<int>)
    requires WellSized(b) && |p.E| == |b.min.E|
  {
    forall i :: 0 <= i < |p.E| ==> b.min.E[i] <= p.E[i] <= b.max.E[i]
  }

  /** Box `c` encloses box `b`. */
  predicate Encloses(c: Bounds, b: Bounds)
    requires WellSized(b) && WellSized(c) && |b.min.E| == |c.min.E|
  {
    forall i :: 0 <= i < |b.min.E| ==> c.min.E[i] <= b.min.E[i] && b.max.E[i] <= c.max.E[i]
  }

  /**
   * `Bounds()`: the empty box, min at the element type's largest value and max at its
   * negation, so that the first `Union` with a point collapses onto that point.
   */
  function DefaultBounds(n: nat, maxT: int): (b: Bounds)
    ensures WellSized(b) && |b.min.E| == n
    ensures forall i :: 0 <= i < n ==> b.min.E[i] == maxT && b.max.E[i] == -maxT
  {
    Bounds(Broadcast(n, maxT), Broadcast(n, -maxT))
  }

  /** For a positive `maxT` the default box is empty: it contains no point at all. */
  lemma DefaultBoundsIsEmpty(n: nat, maxT: int, p: Vector<int>)
    requires maxT > 0 && n > 0 && |p.E| == n
    ensures !Contains(DefaultBounds(n, maxT), p)
  {
    var b := DefaultBounds(n, maxT);
    assert b.min.E[0] > b.max.E[0];
  }

  /** `Union(const VectorTN&)`: the smallest box enclosing both the box and the point. */
  function UnionPoint(b: Bounds, p: Vector<int>): (r: Bounds)
    requires WellSized(b) && |p.E| == |b.min.E|
    ensures WellSized(r) && |r.min.E| == |p.E|
    ensures Contains(r, p)
    ensures Encloses(r, b)
  {
    Bounds(Min(b.min, p), Max(b.max, p))
  }

  /** No box that encloses `b` and contains `p` is smaller than `UnionPoint(b, p)`. */
  lemma UnionPointIsSmallest(b: Bounds, p: Vector<int>, c: Bounds)
    requires WellSized(b) && WellSized(c) && |p.E| == |b.min.E| == |c.min.E|
    requires Encloses(c, b) && Contains(c, p)
    ensures Encloses(c, UnionPoint(b, p))
  {
  }

  /** `Union(const Bounds&)`: the smallest box enclosing both boxes. */
  function UnionBounds(b: Bounds, c: Bounds): (r: Bounds)
    requires WellSized(b) && WellSized(c) && |b.min.E| == |c.min.E|
    ensures WellSized(r) && |r.min.E| == |b.min.E|
    ensures Encloses(r, b) && Encloses(r, c)
    ensures forall d: Bounds :: WellSized(d) && |d.min.E| == |b.min.E| && Encloses(d, b) && Encloses(d, c) ==> Encloses(d, r)
  {
    Bounds(Min(b.min, c.min), Max(b.max, c.max))
  }

  /** A default box unioned with a point in the element range becomes exactly that point. */
  lemma DefaultUnionPoint(p: Vector<int>, maxT: int)
    requires forall i :: 0 <= i < |p.E| ==> -maxT <= p.E[i] <= maxT
    ensures UnionPoint(DefaultBounds(|p.E|, maxT), p) == Bounds(p, p)
  {
    var r := UnionPoint(DefaultBounds(|p.E|, maxT), p);
    assert r.min.E == p.E;
    assert r.max.E == p.E;
  }

  /**
   * At `int32_t` (`Int2`), `Bounds()` starts from `-INT32_MAX`, one above the
   * type's minimum: a union with a point holding `INT32_MIN` takes that
   * component into `min` but leaves `max` at `-INT32_MAX`, not at the point.
   */
  lemma Int32MinimumMissesDefaultMax(y: int)
    requires -IntMath.INT32_MAX <= y <= IntMath.INT32_MAX
    ensures var p := Vector2(-IntMath.INT32_MAX - 1, y);
      var r := UnionPoint(DefaultBounds(2, IntMath.INT32_MAX), p);
      r.min == p && r.max == Vector2(-IntMath.INT32_MAX, y) && r.max != p
  {
    var p := Vector2(-IntMath.INT32_MAX - 1, y);
    var r := UnionPoint(DefaultBounds(2, IntMath.INT32_MAX), p);
    assert r.min.E == p.E;
    assert r.max.E == [-IntMath.INT32_MAX, y];
  }

  /** `Volume()`: the extent `max - min`. */
  function Volume(b: Bounds): (v: Vector<int>)
    requires WellSized(b) && HasOperators(b.min)
    ensures |v.E| == |b.min.E|
    ensures Add(b.min, v) == b.max
  {
    SubUndoesAdd(b.max, b.min);
    assert Add(b.min, Sub(b.max, b.min)).E == Add(Sub(b.max, b.min), b.min).E;
    Sub(b.max, b.min)
  }

  /** A box that contains some point has a non-negative volume; a one-point box has volume zero. */
  lemma VolumeProperties(b: Bounds, p: Vector<int>)
    requires WellSized(b) && HasOperators(b.min) && |p.E| == |b.min.E|
    ensures Contains(b, p) ==> AllTrue(GeScalar(Volume(b), 0))
    ensures Volume(Bounds(p, p)) == Zero(|p.E|)
  {
    assert Volume(Bounds(p, p)).E == Zero(|p.E|).E;
  }

  /**
   * `Bounds(t, args...)`: start from the box holding only `t`, then take the
   * `Union` with each further point in order. The result contains every
   * point, and each corner component is attained by one of the points.
   */
  method BoundsOf(t: Vector<int>, args: seq<Vector<int>>) returns (b: Bounds)
    requires forall k :: 0 <= k < |args| ==> |args[k].E| == |t.E|
    ensures WellSized(b) && |b.min.E| == |t.E|
    ensures Contains(b, t)
    ensures forall k :: 0 <= k < |args| ==> Contains(b, args[k])
    ensures forall i :: 0 <= i < |t.E| ==>
      (b.min.E[i] == t.E[i] || exists k :: 0 <= k < |args| && b.min.E[i] == args[k].E[i])
    ensures forall i :: 0 <= i < |t.E| ==>
      (b.max.E[i] == t.E[i] || exists k :: 0 <= k < |args| && b.max.E[i] == args[k].E[i])
  {
    b := Bounds(t, t);
    var j := 0;
    while j < |args|
      invariant 0 <= j <= |args|
      invariant WellSized(b) && |b.min.E| == |t.E|
      invariant Contains(b, t)
      invariant forall k :: 0 <= k < j ==> Contains(b, args[k])
      invariant forall i :: 0 <= i < |t.E| ==>
        (b.min.E[i] == t.E[i] || exists k :: 0 <= k < j && b.min.E[i] == args[k].E[i])
      invariant forall i :: 0 <= i < |t.E| ==>
        (b.max.E[i] == t.E[i] || exists k :: 0 <= k < j && b.max.E[i] == args[k].E[i])
    {
      b := UnionPoint(b, args[j]);
      j := j + 1;
    }
  }
}

=== FILE: ranges.dfy ===
/**
 * Rectangles of pixels and their recursive decomposition into tiles
 * (render.h: `work_range`, `work_domain`, `split_range`,
 * `generate_parallel_for_domain`, `range_queue_from_domain`).
 */
module Ranges {
  import IntMath

  /** `work_range<TSize>`: the half-open pixel rectangle `[minx, maxx) x [miny, maxy)`. */
  datatype Range = Range(minx: int, maxx: int, miny: int, maxy: int) {
    function Width(): int { maxx - minx }
    function Height(): int { maxy - miny }
  }

  /** `work_domain<TSize>`: the full rectangle and the tiles it was cut into. */
  datatype Domain = Domain(range: Range, ranges: seq<Range>)

  /** Tiles are cut until neither edge exceeds this (`max_size`). */
  const MAX_SIZE: int := 64

  predicate WellFormed(r: Range) {
    r.minx <= r.maxx && r.miny <= r.maxy
  }

  predicate Contains(r: Range, x: int, y: int) {
    r.minx <= x < r.maxx && r.miny <= y < r.maxy
  }

  /** Signed area; the number of pixels when the range is well formed. */
  function Area(r: Range): int {
    r.Width() * r.Height()
  }

  /** Number of pixels, for any range: an inverted edge holds none. */
  function PixelCount(r: Range): nat {
    IntMath.Max(r.Width(), 0) * IntMath.Max(r.Height(), 0)
  }

  /** The longer edge, as `std::max(w, h)` computes it. */
  function LongerEdge(r: Range): int {
    IntMath.Max(r.Width(), r.Height())
  }

  /** How many of the ranges contain the pixel `(x, y)`. */
  function Count(ts: seq<Range>, x: int, y: int): nat
  {
    if |ts| == 0 then 0 else (if Contains(ts[0], x, y) then 1 else 0) + Count(ts[1..], x, y)
  }

  lemma {:induction false} CountAppend(a: seq<Range>, b: seq<Range>, x: int, y: int)
    ensures Count(a + b, x, y) == Count(a, x, y) + Count(b, x, y)
  {
    if |a| == 0 {
      assert a + b == b;
    } else {
      assert (a + b)[1..] == a[1..] + b;
      CountAppend(a[1..], b, x, y);
    }
  }

  /** The sum of the ranges' signed areas. */
  function TotalArea(ts: seq<Range>): int
  {
    if |ts| == 0 then 0 else Area(ts[0]) + TotalArea(ts[1..])
  }

  lemma {:induction false} TotalAreaAppend(a: seq<Range>, b: seq<Range>)
    ensures TotalArea(a + b) == TotalArea(a) + TotalArea(b)
  {
    if |a| == 0 {
      assert a + b == b;
    } else {
      assert (a + b)[1..] == a[1..] + b;
      TotalAreaAppend(a[1..], b);
    }
  }

  // ---------------------------------------------------------------------
  // split_range

  /**
   * `split_range`: cuts along x when the range is wider than tall, otherwise
   * (ties included) along y, at the `std::midpoint` of that axis. The halves
   * share the cut line and keep the other axis as it was.
   */
  function SplitRange(r: Range): (halves: (Range, Range))
    ensures var (a, b) := halves;
      && a.minx == r.minx && b.maxx == r.maxx && a.miny == r.miny && b.maxy == r.maxy
      && (r.Width() > r.Height() ==>
            a.maxx == b.minx && a.miny == b.miny && a.maxy == b.maxy == r.maxy && b.miny == r.miny)
      && (r.Width() <= r.Height() ==>
            a.maxy == b.miny && a.minx == b.minx && a.maxx == b.maxx == r.maxx && b.minx == r.minx)
  {
    var w := r.maxx - r.minx;
    var h := r.maxy - r.miny;
    if w > h then
      var mid := IntMath.Midpoint(r.minx, r.maxx);
      (Range(r.minx, mid, r.miny, r.maxy), Range(mid, r.maxx, r.miny, r.maxy))
    else
      var mid := IntMath.Midpoint(r.miny, r.maxy);
      (Range(r.minx, r.maxx, r.miny, mid), Range(r.minx, r.maxx, mid, r.maxy))
  }

  /** The cut line lies between the bounds of the cut axis and rounds toward its minimum. */
  lemma SplitCutLine(r: Range)
    ensures var (a, b) := SplitRange(r);
      && (r.Width() > r.Height() && r.minx <= r.maxx ==>
            (r.minx <= a.maxx <= r.maxx && r.minx + r.maxx - 1 <= 2 * a.maxx <= r.minx + r.maxx))
      && (r.Width() <= r.Height() && r.miny <= r.maxy ==>
            (r.miny <= a.maxy <= r.maxy && r.miny + r.maxy - 1 <= 2 * a.maxy <= r.miny + r.maxy))
  {
  }

  /**
   * The halves of a split partition the range: every pixel of the range is in
   * exactly one half, no other pixel is in either, and the areas add up. This
   * holds for every range, inverted ones included.
   */
  lemma SplitPartition(r: Range, x: int, y: int)
    ensures var (a, b) := SplitRange(r);
      && (Contains(r, x, y) <==> Contains(a, x, y) || Contains(b, x, y))
      && !(Contains(a, x, y) && Contains(b, x, y))
      && Area(a) + Area(b) == Area(r)
  {
    var (a, b) := SplitRange(r);
    if r.Width() > r.Height() {
      assert Area(a) + Area(b) == (a.Width() + b.Width()) * r.Height();
    } else {
      assert Area(a) + Area(b) == r.Width() * (a.Height() + b.Height());
    }
  }

  /** Both halves of a well-formed range are well formed, and a cut edge of at least 2 really shrinks. */
  lemma SplitShrinks(r: Range)
    ensures var (a, b) := SplitRange(r);
      && (WellFormed(r) ==> WellFormed(a) && WellFormed(b))
      && (r.Width() > r.Height() && r.Width() >= 2 ==>
            0 < a.Width() < r.Width() && 0 < b.Width() < r.Width())
      && (r.Width() <= r.Height() && r.Height() >= 2 ==>
            0 < a.Height() < r.Height() && 0 < b.Height() < r.Height())
  {
  }

  /** `a` lies inside `b`: each bound of `a` is on the inner side of the same bound of `b`. */
  predicate Within(a: Range, b: Range) {
    b.minx <= a.minx && a.maxx <= b.maxx && b.miny <= a.miny && a.maxy <= b.maxy
  }

  /** `a` lies inside one of the ranges `ts`. */
  predicate WithinSome(a: Range, ts: seq<Range>) {
    exists k :: 0 <= k < |ts| && Within(a, ts[k])
  }

  /** Both halves of a well-formed range lie inside it, so each holds only pixels of the range. */
  lemma SplitWithin(r: Range, x: int, y: int)
    requires WellFormed(r)
    ensures var (a, b) := SplitRange(r);
      && Within(a, r) && Within(b, r)
      && (Contains(a, x, y) ==> Contains(r, x, y)) && (Contains(b, x, y) ==> Contains(r, x, y))
  {
    SplitCutLine(r);
  }

  // ---------------------------------------------------------------------
  // generate_parallel_for_domain

  /** Termination measure of the recursive subdivision: the sum of the clipped edges. */
  function EdgeSum(r: Range): nat {
    IntMath.Max(r.Width(), 0) + IntMath.Max(r.Height(), 0)
  }

  /**
   * The `subdivide` lambda: a range whose longer edge exceeds `MAX_SIZE` is
   * split and both halves are subdivided, the first half's tiles first;
   * otherwise the range itself is emitted. Every emitted tile has both edges
   * at most `MAX_SIZE`, and tiles of a well-formed range are well formed.
   */
  function Subdivide(r: Range): (tiles: seq<Range>)
    ensures |tiles| >= 1
    ensures forall k :: 0 <= k < |tiles| ==> LongerEdge(tiles[k]) <= MAX_SIZE
    ensures WellFormed(r) ==> forall k :: 0 <= k < |tiles| ==> WellFormed(tiles[k])
    decreases EdgeSum(r)
  {
    if LongerEdge(r) > MAX_SIZE then
      var halves := SplitRange(r);
      SplitShrinks(r);
      Subdivide(halves.0) + Subdivide(halves.1)
    else
      [r]
  }

  /** The tiles of `Subdivide` cover every pixel of the range exactly once and no other pixel. */
  lemma {:induction false} SubdivideCovers(r: Range, x: int, y: int)
    ensures Count(Subdivide(r), x, y) == if Contains(r, x, y) then 1 else 0
    decreases EdgeSum(r)
  {
    if LongerEdge(r) > MAX_SIZE {
      var (a, b) := SplitRange(r);
      SplitShrinks(r);
      SplitPartition(r, x, y);
      SubdivideCovers(a, x, y);
      SubdivideCovers(b, x, y);
      CountAppend(Subdivide(a), Subdivide(b), x, y);
    } else {
      assert Subdivide(r)[1..] == [];
    }
  }

  /** The tiles' areas add up to the range's area. */
  lemma {:induction false} SubdivideKeepsArea(r: Range)
    ensures TotalArea(Subdivide(r)) == Area(r)
    decreases EdgeSum(r)
  {
    if LongerEdge(r) > MAX_SIZE {
      var (a, b) := SplitRange(r);
      SplitShrinks(r);
      SplitPartition(r, 0, 0);
      SubdivideKeepsArea(a);
      SubdivideKeepsArea(b);
      TotalAreaAppend(Subdivide(a), Subdivide(b));
    } else {
      assert Subdivide(r)[1..] == [];
    }
  }

  /** Every tile of a well-formed range lies inside it. */
  lemma {:induction false} SubdivideWithin(r: Range)
    requires WellFormed(r)
    ensures forall k :: 0 <= k < |Subdivide(r)| ==> Within(Subdivide(r)[k], r)
    decreases EdgeSum(r)
  {
    if LongerEdge(r) > MAX_SIZE {
      var (a, b) := SplitRange(r);
      SplitShrinks(r);
      SplitWithin(r, 0, 0);
      SubdivideWithin(a);
      SubdivideWithin(b);
      var ta, tb := Subdivide(a), Subdivide(b);
      assert Subdivide(r) == ta + tb;
      forall k | 0 <= k < |ta + tb|
        ensures Within((ta + tb)[k], r)
      {
        if k < |ta| {
          assert Within(ta[k], a);
        } else {
          assert Within(tb[k - |ta|], b);
        }
      }
    }
  }

  /** An oversized range emits all of its first half's tiles, then all of its second half's. */
  lemma SubdivideDepthFirst(r: Range)
    requires LongerEdge(r) > MAX_SIZE
    ensures Subdivide(r) == Subdivide(SplitRange(r).0) + Subdivide(SplitRange(r).1)
    ensures |Subdivide(r)| >= 2
  {
  }

  /** A range already within the size bound is emitted unchanged, as the only tile. */
  lemma SubdivideSmall(r: Range)
    requires LongerEdge(r) <= MAX_SIZE
    ensures Subdivide(r) == [r]
  {
  }

  /**
   * `generate_parallel_for_domain(min_x, max_x, min_y, max_y)`: the domain's
   * tiles are bounded by `MAX_SIZE` and cover each pixel of its range exactly once.
   */
  function GenerateDomain(minx: int, maxx: int, miny: int, maxy: int): (d: Domain)
    ensures d.range == Range(minx, maxx, miny, maxy)
    ensures forall k :: 0 <= k < |d.ranges| ==> LongerEdge(d.ranges[k]) <= MAX_SIZE
    ensures forall x, y :: Count(d.ranges, x, y) == if Contains(d.range, x, y) then 1 else 0
  {
    var r := Range(minx, maxx, miny, maxy);
    forall x, y
      ensures Count(Subdivide(r), x, y) == if Contains(r, x, y) then 1 else 0
    {
      SubdivideCovers(r, x, y);
    }
    Domain(r, Subdivide(r))
  }

  /** `generate_parallel_for_domain(width, height)`: the domain `[0, width) x [0, height)`. */
  function GenerateDomainOfSize(width: int, height: int): (d: Domain)
    ensures d.range == Range(0, width, 0, height)
    ensures forall x, y :: Count(d.ranges, x, y) == if 0 <= x < width && 0 <= y < height then 1 else 0
  {
    GenerateDomain(0, width, 0, height)
  }

  // ---------------------------------------------------------------------
  // generate_parallel_for_domain at TSize = unsigned int

  /** Arithmetic on `unsigned int` is modulo 2^32. */
  const U32_MODULUS: int := 0x1_0000_0000

  predicate IsU32(v: int) {
    0 <= v < U32_MODULUS
  }

  predicate IsU32Range(r: Range) {
    IsU32(r.minx) && IsU32(r.maxx) && IsU32(r.miny) && IsU32(r.maxy)
  }

  /** `a - b` at `unsigned int`: wraps modulo 2^32, and is the plain difference when that is not negative. */
  function SubU32(a: int, b: int): (d: int)
    requires IsU32(a) && IsU32(b)
    ensures IsU32(d)
    ensures b <= a ==> d == a - b
    ensures a < b ==> d == a - b + U32_MODULUS
  {
    (a - b) % U32_MODULUS
  }

  /** `std::max(w, h)` in `subdivide` at `unsigned int`. */
  function LongerEdgeU32(r: Range): int
    requires IsU32Range(r)
  {
    IntMath.Max(SubU32(r.maxx, r.minx), SubU32(r.maxy, r.miny))
  }

  /**
   * `split_range` at `unsigned int`: the axis is chosen on the wrapped edges;
   * `std::midpoint` of two unsigned values is exact and rounds toward its
   * first argument, as for signed ones.
   */
  function SplitRangeU32(r: Range): (Range, Range)
    requires IsU32Range(r)
  {
    if SubU32(r.maxx, r.minx) > SubU32(r.maxy, r.miny) then
      var mid := IntMath.Midpoint(r.minx, r.maxx);
      (Range(r.minx, mid, r.miny, r.maxy), Range(mid, r.maxx, r.miny, r.maxy))
    else
      var mid := IntMath.Midpoint(r.miny, r.maxy);
      (Range(r.minx, r.maxx, r.miny, mid), Range(r.minx, r.maxx, mid, r.maxy))
  }

  /**
   * At `unsigned int`, a range inverted by one column on x (and not taller
   * than 2^32 - 2) has the wrapped width 2^32 - 1, so `subdivide` splits it
   * along x at `std::midpoint(minx, minx - 1) == minx`. The second half is
   * the range itself: `subdivide` calls itself on the same range again and
   * never returns.
   */
  lemma UnsignedInvertedRangeRecursesForever(r: Range)
    requires IsU32Range(r) && r.minx == r.maxx + 1
    requires r.miny <= r.maxy < r.miny + U32_MODULUS - 1
    ensures LongerEdgeU32(r) > MAX_SIZE
    ensures SplitRangeU32(r).1 == r
  {
    assert SubU32(r.maxx, r.minx) == U32_MODULUS - 1;
  }

  /** On a well-formed unsigned range nothing wraps, so the unsigned decisions are the signed ones. */
  lemma UnsignedAgreesOnWellFormed(r: Range)
    requires IsU32Range(r) && WellFormed(r)
    ensures LongerEdgeU32(r) == LongerEdge(r)
    ensures SplitRangeU32(r) == SplitRange(r)
  {
  }

  /**
   * `subdivide` at `unsigned int` with inverted ranges set aside: a range
   * with `max < min` on either axis holds no pixel and is emitted as it is,
   * so the recursion only sees well-formed ranges, on which the unsigned
   * code decides as the signed one does. It always returns, covers each
   * pixel of the range exactly once, and the tiles of a well-formed
   * unsigned range are unsigned ranges within `MAX_SIZE` by the wrapped
   * measure.
   */
  function SubdivideU32Guarded(r: Range): (tiles: seq<Range>)
    ensures |tiles| >= 1
    ensures forall x, y :: Count(tiles, x, y) == if Contains(r, x, y) then 1 else 0
    ensures WellFormed(r) ==> forall k :: 0 <= k < |tiles| ==>
      WellFormed(tiles[k]) && LongerEdge(tiles[k]) <= MAX_SIZE
    ensures WellFormed(r) && IsU32Range(r) ==> forall k :: 0 <= k < |tiles| ==>
      IsU32Range(tiles[k]) && LongerEdgeU32(tiles[k]) <= MAX_SIZE
  {
    forall x, y
      ensures Count(Subdivide(r), x, y) == if Contains(r, x, y) then 1 else 0
    {
      SubdivideCovers(r, x, y);
    }
    if !WellFormed(r) then
      assert [r][1..] == [];
      [r]
    else
      SubdivideWithin(r);
      Subdivide(r)
  }

  // ---------------------------------------------------------------------
  // A 256 x 256 image becomes sixteen 64 x 64 tiles.

  predicate AllTiles64(ts: seq<Range>) {
    forall k :: 0 <= k < |ts| ==> ts[k].Width() == 64 && ts[k].Height() == 64
  }

  lemma Tiles128x64(x0: int, y0: int)
    ensures var ts := Subdivide(Range(x0, x0 + 128, y0, y0 + 64)); |ts| == 2 && AllTiles64(ts)
  {
    var r := Range(x0, x0 + 128, y0, y0 + 64);
    assert SplitRange(r) == (Range(x0, x0 + 64, y0, y0 + 64), Range(x0 + 64, x0 + 128, y0, y0 + 64));
    SubdivideSmall(Range(x0, x0 + 64, y0, y0 + 64));
    SubdivideSmall(Range(x0 + 64, x0 + 128, y0, y0 + 64));
  }

  lemma Tiles128(x0: int, y0: int)
    ensures var ts := Subdivide(Range(x0, x0 + 128, y0, y0 + 128)); |ts| == 4 && AllTiles64(ts)
  {
    var r := Range(x0, x0 + 128, y0, y0 + 128);
    assert SplitRange(r) == (Range(x0, x0 + 128, y0, y0 + 64), Range(x0, x0 + 128, y0 + 64, y0 + 128));
    Tiles128x64(x0, y0);
    Tiles128x64(x0, y0 + 64);
  }

  lemma Tiles256x128(x0: int, y0: int)
    ensures var ts := Subdivide(Range(x0, x0 + 256, y0, y0 + 128)); |ts| == 8 && AllTiles64(ts)
  {
    var r := Range(x0, x0 + 256, y0, y0 + 128);
    assert SplitRange(r) == (Range(x0, x0 + 128, y0, y0 + 128), Range(x0 + 128, x0 + 256, y0, y0 + 128));
    Tiles128(x0, y0);
    Tiles128(x0 + 128, y0);
  }

  /** A 256 x 256 domain, wherever it starts (`(256, 256)` starts at the origin), yields sixteen 64 x 64 tiles. */
  lemma Domain256Has16Tiles(x0: int, y0: int)
    ensures var d := GenerateDomain(x0, x0 + 256, y0, y0 + 256); |d.ranges| == 16 && AllTiles64(d.ranges)
  {
    Tiles256(x0, y0);
  }

  lemma Tiles256(x0: int, y0: int)
    ensures var ts := Subdivide(Range(x0, x0 + 256, y0, y0 + 256)); |ts| == 16 && AllTiles64(ts)
  {
    var r := Range(x0, x0 + 256, y0, y0 + 256);
    assert SplitRange(r) == (Range(x0, x0 + 256, y0, y0 + 128), Range(x0, x0 + 256, y0 + 128, y0 + 256));
    Tiles256x128(x0, y0);
    Tiles256x128(x0, y0 + 128);
  }

  // ---------------------------------------------------------------------
  // range_queue_from_domain

  /** `range_queue_from_domain`: pushes the domain's tiles, in order, onto an empty FIFO queue. */
  method RangeQueueFromDomain(ranges: seq<Range>) returns (queue: seq<Range>)
    ensures queue == ranges
  {
    queue := [];
    for i := 0 to |ranges|
      invariant queue == ranges[..i]
    {
      queue := queue + [ranges[i]];
    }
  }
}

=== FILE: scheduler.dfy ===
/**
 * The work queue of `parallel_for` (render.h). The `take_range` lambda runs
 * under a mutex, so each call is one atomic step on the FIFO queue; the
 * model gives it as a pure transition. Whatever the interleaving of the
 * workers, the successful steps form one sequence of such transitions that
 * ends when the queue is empty (only `take_range` itself ever pushes), so a
 * single sequential loop dispatches exactly the tiles the workers do.
 */
module Scheduler {
  import IntMath
  import opened Wrappers
  import opened Ranges
  import opened TileIteration

  /** A popped tile is only split when its shorter edge exceeds this. */
  const SPLIT_MIN_EDGE: int := 4

  /** The result of one `take_range` call: the range handed out, and the queue left behind. */
  datatype Step = Step(taken: Option<Range>, queue: seq<Range>)

  /**
   * `take_range`: nothing when the queue is empty. Otherwise the front range
   * is popped; when fewer ranges than `numThreads` remain and its shorter edge
   * exceeds `SPLIT_MIN_EDGE`, it is split, the second half is pushed onto the
   * tail and the first half returned; otherwise it is returned as it was.
   */
  function TakeRange(queue: seq<Range>, numThreads: nat): (s: Step)
    ensures s.taken.None? <==> queue == []
    ensures queue == [] ==> s.queue == queue
    ensures queue != [] ==> |queue| - 1 <= |s.queue| <= |queue| && s.queue[..|queue| - 1] == queue[1..]
    ensures queue != [] && |s.queue| == |queue| ==>
      var r := queue[0];
      && |queue| - 1 < numThreads && IntMath.Min(r.Width(), r.Height()) > SPLIT_MIN_EDGE
      && s.taken == Some(SplitRange(r).0) && s.queue[|queue| - 1] == SplitRange(r).1
    ensures queue != [] && |s.queue| < |queue| ==>
      var r := queue[0];
      && !(|queue| - 1 < numThreads && IntMath.Min(r.Width(), r.Height()) > SPLIT_MIN_EDGE)
      && s.taken == Some(r)
  {
    if |queue| == 0 then
      Step(None, queue)
    else
      var range := queue[0];
      var rest := queue[1..];
      var w := range.maxx - range.minx;
      var h := range.maxy - range.miny;
      if |rest| < numThreads && IntMath.Min(w, h) > SPLIT_MIN_EDGE then
        var split := SplitRange(range);
        Step(Some(split.0), rest + [split.1])
      else
        Step(Some(range), rest)
  }

  /** How many times the taken range (if any) contains the pixel. */
  function TakenCount(s: Step, x: int, y: int): nat {
    if s.taken.Some? && Contains(s.taken.value, x, y) then 1 else 0
  }

  /** A step loses no pixel and duplicates none: the taken range and the new queue hold exactly the old queue's pixels. */
  lemma TakeRangeConserves(queue: seq<Range>, numThreads: nat, x: int, y: int)
    ensures var s := TakeRange(queue, numThreads);
      Count(queue, x, y) == TakenCount(s, x, y) + Count(s.queue, x, y)
    ensures var s := TakeRange(queue, numThreads);
      TotalArea(queue) == (if s.taken.Some? then Area(s.taken.value) else 0) + TotalArea(s.queue)
  {
    var s := TakeRange(queue, numThreads);
    if queue != [] {
      var r := queue[0];
      if |s.queue| == |queue| {
        var (a, b) := SplitRange(r);
        SplitPartition(r, x, y);
        CountAppend(queue[1..], [b], x, y);
        TotalAreaAppend(queue[1..], [b]);
        assert Count([b], x, y) == if Contains(b, x, y) then 1 else 0;
      }
    }
  }

  /** The sum of the ranges' pixel counts. */
  function TotalPixels(ts: seq<Range>): nat
  {
    if |ts| == 0 then 0 else PixelCount(ts[0]) + TotalPixels(ts[1..])
  }

  lemma {:induction false} TotalPixelsAppend(a: seq<Range>, b: seq<Range>)
    ensures TotalPixels(a + b) == TotalPixels(a) + TotalPixels(b)
  {
    if |a| == 0 {
      assert a + b == b;
    } else {
      assert (a + b)[1..] == a[1..] + b;
      TotalPixelsAppend(a[1..], b);
    }
  }

  /**
   * Every successful step makes progress: either the queue's pixels strictly
   * decrease (a split hands out a non-empty half) or they stay and the queue
   * gets shorter. So a loop that takes until nothing is left terminates.
   */
  lemma TakeRangeProgress(queue: seq<Range>, numThreads: nat)
    requires queue != []
    ensures var s := TakeRange(queue, numThreads);
      TotalPixels(s.queue) <= TotalPixels(queue) &&
      (|s.queue| == |queue| ==> TotalPixels(s.queue) < TotalPixels(queue))
  {
    var s := TakeRange(queue, numThreads);
    var r := queue[0];
    assert TotalPixels(queue) == PixelCount(r) + TotalPixels(queue[1..]);
    if |s.queue| == |queue| {
      var (a, b) := SplitRange(r);
      SplitShrinks(r);
      SplitPartition(r, 0, 0);
      TotalPixelsAppend(queue[1..], [b]);
      assert TotalPixels([b]) == PixelCount(b);
      assert PixelCount(a) == Area(a) && PixelCount(b) == Area(b) && PixelCount(r) == Area(r);
      assert a.Width() > 0 && a.Height() > 0;
      PositiveArea(a.Width(), a.Height());
    }
  }

  lemma PositiveArea(w: int, h: int)
    requires w > 0 && h > 0
    ensures w * h > 0
  {
  }

  /** A tile within the size bound. */
  predicate Bounded(r: Range) {
    WellFormed(r) && LongerEdge(r) <= MAX_SIZE
  }

  /** Splitting on demand never makes a tile larger or inverted: bounded queues stay bounded. */
  lemma TakeRangeKeepsTilesBounded(queue: seq<Range>, numThreads: nat)
    requires forall k :: 0 <= k < |queue| ==> Bounded(queue[k])
    ensures var s := TakeRange(queue, numThreads);
      (s.taken.Some? ==> Bounded(s.taken.value)) && forall k :: 0 <= k < |s.queue| ==> Bounded(s.queue[k])
  {
    if queue != [] {
      SplitShrinks(queue[0]);
    }
  }

  /** The pixels stored so far plus those still queued are exactly the pixels of the domain's tiles. */
  ghost predicate Accounted<C>(stores: seq<Store<C>>, queue: seq<Range>, ranges: seq<Range>) {
    forall x, y :: multiset(Coords(stores))[(x, y)] + Count(queue, x, y) == Count(ranges, x, y)
  }

  /** Storing every pixel of the taken tile keeps the account balanced. */
  lemma StoreTakenTile<C>(stores: seq<Store<C>>, tileStores: seq<Store<C>>, queue: seq<Range>, numThreads: nat, ranges: seq<Range>)
    requires Accounted(stores, queue, ranges)
    requires TakeRange(queue, numThreads).taken.Some?
    requires Coords(tileStores) == TileVisits(TakeRange(queue, numThreads).taken.value)
    ensures Accounted(stores + tileStores, TakeRange(queue, numThreads).queue, ranges)
  {
    var step := TakeRange(queue, numThreads);
    assert Coords(stores + tileStores) == Coords(stores) + Coords(tileStores);
    forall x, y
      ensures multiset(Coords(stores + tileStores))[(x, y)] + Count(step.queue, x, y) == Count(ranges, x, y)
    {
      TileVisitsExactlyOnce(step.taken.value, x, y);
      TakeRangeConserves(queue, numThreads, x, y);
    }
  }

  /**
   * The colour of a store is the one the tile function computes for that
   * pixel, when handed the block of some range containing the pixel together
   * with the domain's range.
   */
  ghost predicate ColouredByTile<C>(s: Store<C>, range: Range, tileFunc: WorkBlock -> ((int, int) -> C)) {
    exists t: Range :: Contains(t, s.x, s.y) && s.color == tileFunc(WorkBlock(t, range))(s.x, s.y)
  }

  ghost predicate AllColouredByTile<C>(stores: seq<Store<C>>, range: Range, tileFunc: WorkBlock -> ((int, int) -> C)) {
    forall k :: 0 <= k < |stores| ==> ColouredByTile(stores[k], range, tileFunc)
  }

  /** The stores of one tile carry the tile function's colours, and lie in that tile. */
  lemma TileStoresColoured<C>(block: WorkBlock, tileFunc: WorkBlock -> ((int, int) -> C), stores: seq<Store<C>>, tileStores: seq<Store<C>>)
    requires AllColouredByTile(stores, block.domain, tileFunc)
    requires Coords(tileStores) == TileVisits(block.tile)
    requires forall i :: 0 <= i < |tileStores| ==> tileStores[i].color == tileFunc(block)(tileStores[i].x, tileStores[i].y)
    ensures AllColouredByTile(stores + tileStores, block.domain, tileFunc)
  {
    forall k | 0 <= k < |stores + tileStores|
      ensures ColouredByTile((stores + tileStores)[k], block.domain, tileFunc)
    {
      if k >= |stores| {
        var s := tileStores[k - |stores|];
        var p := Coords(tileStores)[k - |stores|];
        assert p == (s.x, s.y);
        assert p in multiset(TileVisits(block.tile));
        TileVisitsExactlyOnce(block.tile, s.x, s.y);
        assert WorkBlock(block.tile, block.domain) == block;
        assert Contains(block.tile, s.x, s.y) && s.color == tileFunc(WorkBlock(block.tile, block.domain))(s.x, s.y);
      }
    }
  }

  /** A split hands out and queues only ranges inside the popped one; every range left in the queue lies inside an old one. */
  lemma TakeRangeWithin(queue: seq<Range>, numThreads: nat)
    ensures var s := TakeRange(queue, numThreads);
      && (s.taken.Some? ==> Within(s.taken.value, queue[0]))
      && forall m :: 0 <= m < |s.queue| ==> WithinSome(s.queue[m], queue)
  {
    var s := TakeRange(queue, numThreads);
    if queue != [] {
      var r := queue[0];
      if |s.queue| == |queue| {
        SplitWithin(r, 0, 0);
        assert Within(s.queue[|queue| - 1], queue[0]);
      }
      forall m | 0 <= m < |s.queue|
        ensures WithinSome(s.queue[m], queue)
      {
        if m < |queue| - 1 {
          assert s.queue[m] == queue[m + 1];
          assert Within(queue[m + 1], queue[m + 1]);
        } else {
          assert Within(s.queue[m], queue[0]);
        }
      }
    }
  }

  /**
   * The ranges `take_range` hands out, in order, when it is called until it
   * returns nothing: the reference sequence of dispatched tiles.
   */
  function Drain(queue: seq<Range>, numThreads: nat): seq<Range>
    decreases TotalPixels(queue), |queue|
  {
    var s := TakeRange(queue, numThreads);
    if s.taken.None? then []
    else
      TakeRangeProgress(queue, numThreads);
      [s.taken.value] + Drain(s.queue, numThreads)
  }

  /** The dispatched tiles cover each pixel exactly as often as the queue they were taken from. */
  lemma {:induction false} DrainCovers(queue: seq<Range>, numThreads: nat, x: int, y: int)
    ensures Count(Drain(queue, numThreads), x, y) == Count(queue, x, y)
    decreases TotalPixels(queue), |queue|
  {
    var s := TakeRange(queue, numThreads);
    if s.taken.Some? {
      TakeRangeProgress(queue, numThreads);
      var rest := Drain(s.queue, numThreads);
      DrainCovers(s.queue, numThreads, x, y);
      TakeRangeConserves(queue, numThreads, x, y);
      assert Drain(queue, numThreads) == [s.taken.value] + rest;
      CountAppend([s.taken.value], rest, x, y);
      assert Count([s.taken.value], x, y) == TakenCount(s, x, y);
    }
  }

  /** Every dispatched tile lies inside one of the ranges the queue started with. */
  lemma {:induction false} DrainWithin(queue: seq<Range>, numThreads: nat)
    ensures forall j :: 0 <= j < |Drain(queue, numThreads)| ==> WithinSome(Drain(queue, numThreads)[j], queue)
    decreases TotalPixels(queue), |queue|
  {
    var s := TakeRange(queue, numThreads);
    if s.taken.Some? {
      TakeRangeProgress(queue, numThreads);
      var d := Drain(queue, numThreads);
      var rest := Drain(s.queue, numThreads);
      DrainWithin(s.queue, numThreads);
      TakeRangeWithin(queue, numThreads);
      assert d == [s.taken.value] + rest;
      forall j | 0 <= j < |d|
        ensures WithinSome(d[j], queue)
      {
        if j == 0 {
          assert Within(d[0], queue[0]);
        } else {
          assert d[j] == rest[j - 1];
          var m :| 0 <= m < |s.queue| && Within(rest[j - 1], s.queue[m]);
          var k :| 0 <= k < |queue| && Within(s.queue[m], queue[k]);
          assert Within(d[j], queue[k]);
        }
      }
    }
  }

  /**
   * The stores the worker loop makes for the tiles `taken`, in dispatch
   * order: each tile in row-major order, coloured by the per-pixel function
   * the tile function returns for that tile's `work_block`.
   */
  function Dispatched<C>(taken: seq<Range>, range: Range, tileFunc: WorkBlock -> ((int, int) -> C)): seq<Store<C>>
  {
    if |taken| == 0 then []
    else
      var block := WorkBlock(taken[|taken| - 1], range);
      Dispatched(taken[..|taken| - 1], range, tileFunc) + TileStores(block.tile, tileFunc(block))
  }

  /** The colour of a store comes from the block of the dispatched tile `taken[j]` that contains its pixel. */
  ghost predicate ColouredByTaken<C>(s: Store<C>, taken: seq<Range>, range: Range, tileFunc: WorkBlock -> ((int, int) -> C)) {
    exists j :: 0 <= j < |taken| && Contains(taken[j], s.x, s.y) && s.color == tileFunc(WorkBlock(taken[j], range))(s.x, s.y)
  }

  ghost predicate AllColouredByTaken<C>(stores: seq<Store<C>>, taken: seq<Range>, range: Range, tileFunc: WorkBlock -> ((int, int) -> C)) {
    forall k :: 0 <= k < |stores| ==> ColouredByTaken(stores[k], taken, range, tileFunc)
  }

  /** Each dispatched store lies in a dispatched tile and carries the colour that tile's block gives it. */
  lemma {:induction false} DispatchedColours<C>(taken: seq<Range>, range: Range, tileFunc: WorkBlock -> ((int, int) -> C))
    ensures AllColouredByTaken(Dispatched(taken, range, tileFunc), taken, range, tileFunc)
    decreases |taken|
  {
    if |taken| > 0 {
      var n := |taken| - 1;
      var prefix := taken[..n];
      var block := WorkBlock(taken[n], range);
      var before := Dispatched(prefix, range, tileFunc);
      var tile := TileStores(block.tile, tileFunc(block));
      var all := Dispatched(taken, range, tileFunc);
      DispatchedColours(prefix, range, tileFunc);
      assert all == before + tile;
      forall k | 0 <= k < |all|
        ensures ColouredByTaken(all[k], taken, range, tileFunc)
      {
        if k < |before| {
          assert all[k] == before[k];
          assert ColouredByTaken(before[k], prefix, range, tileFunc);
          var j :| 0 <= j < |prefix| && Contains(prefix[j], before[k].x, before[k].y)
            && before[k].color == tileFunc(WorkBlock(prefix[j], range))(before[k].x, before[k].y);
          assert taken[j] == prefix[j];
        } else {
          var st := tile[k - |before|];
          assert all[k] == st;
          assert Coords(tile)[k - |before|] == (st.x, st.y);
          assert (st.x, st.y) in multiset(TileVisits(block.tile));
          TileVisitsExactlyOnce(block.tile, st.x, st.y);
          assert Contains(taken[n], st.x, st.y) && st.color == tileFunc(WorkBlock(taken[n], range))(st.x, st.y);
        }
      }
    }
  }

  /** One successful `take_range` moves its range from the front of the drain to the end of the taken sequence. */
  lemma DrainStep(taken: seq<Range>, queue: seq<Range>, numThreads: nat, start: seq<Range>)
    requires TakeRange(queue, numThreads).taken.Some?
    requires taken + Drain(queue, numThreads) == start
    ensures var s := TakeRange(queue, numThreads);
      (taken + [s.taken.value]) + Drain(s.queue, numThreads) == start
  {
    var s := TakeRange(queue, numThreads);
    TakeRangeProgress(queue, numThreads);
    assert Drain(queue, numThreads) == [s.taken.value] + Drain(s.queue, numThreads);
  }

  /** Dispatching one more tile appends that tile's row-major stores. */
  lemma DispatchedSnoc<C>(taken: seq<Range>, t: Range, range: Range, tileFunc: WorkBlock -> ((int, int) -> C))
    ensures Dispatched(taken + [t], range, tileFunc)
      == Dispatched(taken, range, tileFunc) + TileStores(t, tileFunc(WorkBlock(t, range)))
  {
    assert (taken + [t])[..|taken|] == taken;
  }

  /** What the drained tiles of a domain and their stores satisfy, gathered for the worker loop. */
  lemma DrainedDomain<C>(domain: Domain, numThreads: nat, tileFunc: WorkBlock -> ((int, int) -> C))
    ensures var taken := Drain(domain.ranges, numThreads);
      && (forall x, y :: Count(taken, x, y) == Count(domain.ranges, x, y))
      && (forall j :: 0 <= j < |taken| ==> WithinSome(taken[j], domain.ranges))
      && AllColouredByTaken(Dispatched(taken, domain.range, tileFunc), taken, domain.range, tileFunc)
  {
    var taken := Drain(domain.ranges, numThreads);
    forall x, y
      ensures Count(taken, x, y) == Count(domain.ranges, x, y)
    {
      DrainCovers(domain.ranges, numThreads, x, y);
    }
    DrainWithin(domain.ranges, numThreads);
    DispatchedColours(taken, domain.range, tileFunc);
  }

  /**
   * The worker loop run by one thread: take a range, build its `work_block`
   * with the whole domain, ask the tile function for the per-pixel function
   * and iterate over the tile, until `take_range` returns nothing. The queue
   * starts as the domain's tiles. The ranges handed out are returned as
   * `taken`; they cut the domain's tiles into pieces that cover every pixel
   * as often as the tiles do, and the stores are exactly those of
   * `iterate_over_tile` on each taken range in turn.
   */
  method ProcessDomain<C>(domain: Domain, numThreads: nat, tileFunc: WorkBlock -> ((int, int) -> C))
    returns (stores: seq<Store<C>>, taken: seq<Range>)
    ensures taken == Drain(domain.ranges, numThreads)
    ensures stores == Dispatched(taken, domain.range, tileFunc)
    ensures forall x, y :: Count(taken, x, y) == Count(domain.ranges, x, y)
    ensures forall j :: 0 <= j < |taken| ==> WithinSome(taken[j], domain.ranges)
    ensures forall x, y :: multiset(Coords(stores))[(x, y)] == Count(domain.ranges, x, y)
    ensures AllColouredByTile(stores, domain.range, tileFunc)
    ensures AllColouredByTaken(stores, taken, domain.range, tileFunc)
  {
    var queue := RangeQueueFromDomain(domain.ranges);
    stores, taken := [], [];
    assert Accounted(stores, queue, domain.ranges);
    while true
      invariant Accounted(stores, queue, domain.ranges)
      invariant AllColouredByTile(stores, domain.range, tileFunc)
      invariant taken + Drain(queue, numThreads) == Drain(domain.ranges, numThreads)
      invariant stores == Dispatched(taken, domain.range, tileFunc)
      decreases TotalPixels(queue), |queue|
    {
      var step := TakeRange(queue, numThreads);
      if step.taken.None? {
        break;
      }
      var block := WorkBlock(step.taken.value, domain.range);
      var tileStores := IterateOverTile(block, tileFunc(block));
      StoreTakenTile(stores, tileStores, queue, numThreads, domain.ranges);
      TileStoresColoured(block, tileFunc, stores, tileStores);
      TakeRangeProgress(queue, numThreads);
      DrainStep(taken, queue, numThreads, Drain(domain.ranges, numThreads));
      DispatchedSnoc(taken, step.taken.value, domain.range, tileFunc);
      stores := stores + tileStores;
      taken := taken + [step.taken.value];
      queue := step.queue;
    }
    assert queue == [];
    DrainedDomain(domain, numThreads, tileFunc);
  }

  /**
   * `parallel_for(domain, tile_func, store_result)` as written: it starts
   * `hardwareConcurrency` workers, so when the platform reports 0 no worker
   * runs, no range is taken and no pixel is stored.
   */
  method ParallelFor<C>(domain: Domain, hardwareConcurrency: nat, tileFunc: WorkBlock -> ((int, int) -> C))
    returns (stores: seq<Store<C>>, taken: seq<Range>)
    ensures hardwareConcurrency > 0 ==> taken == Drain(domain.ranges, hardwareConcurrency)
    ensures hardwareConcurrency == 0 ==> taken == []
    ensures stores == Dispatched(taken, domain.range, tileFunc)
    ensures forall j :: 0 <= j < |taken| ==> WithinSome(taken[j], domain.ranges)
    ensures hardwareConcurrency > 0 ==> forall x, y :: multiset(Coords(stores))[(x, y)] == Count(domain.ranges, x, y)
    ensures hardwareConcurrency == 0 ==> forall x, y :: multiset(Coords(stores))[(x, y)] == 0
    ensures AllColouredByTile(stores, domain.range, tileFunc)
    ensures AllColouredByTaken(stores, taken, domain.range, tileFunc)
  {
    if hardwareConcurrency == 0 {
      stores, taken := [], [];
    } else {
      stores, taken := ProcessDomain(domain, hardwareConcurrency, tileFunc);
    }
  }

  /**
   * `parallel_for` with at least one worker: every pixel of a generated
   * domain is stored exactly once, whatever the reported concurrency, with
   * the colour the tile function computes for it from the block of the
   * taken tile that holds it.
   */
  method ParallelForIntended<C>(domain: Domain, hardwareConcurrency: nat, tileFunc: WorkBlock -> ((int, int) -> C))
    returns (stores: seq<Store<C>>, taken: seq<Range>)
    requires domain == GenerateDomain(domain.range.minx, domain.range.maxx, domain.range.miny, domain.range.maxy)
    ensures taken == Drain(domain.ranges, IntMath.Max(hardwareConcurrency, 1))
    ensures stores == Dispatched(taken, domain.range, tileFunc)
    ensures forall x, y :: Count(taken, x, y) == if Contains(domain.range, x, y) then 1 else 0
    ensures forall j :: 0 <= j < |taken| ==> WithinSome(taken[j], domain.ranges)
    ensures forall x, y :: multiset(Coords(stores))[(x, y)] == if Contains(domain.range, x, y) then 1 else 0
    ensures AllColouredByTile(stores, domain.range, tileFunc)
    ensures AllColouredByTaken(stores, taken, domain.range, tileFunc)
  {
    var workers := IntMath.Max(hardwareConcurrency, 1);
    stores, taken := ProcessDomain(domain, workers, tileFunc);
  }
}

=== FILE: tileiteration.dfy ===
/**
 * The integer loop structure of `iterate_over_tile` (render.h): every pixel
 * of the tile, rows from `miny` upward and, within a row, `x` from `minx`
 * upward; for each pixel the colour computed by the per-pixel function is
 * handed, with the same coordinates, to the store callback.
 */
module TileIteration {
  import IntMath
  import opened Ranges

  /** `work_block<TSize>`: a tile together with the domain it was cut from. */
  datatype WorkBlock = WorkBlock(tile: Range, domain: Range)

  /** One call `store(x, y, color)`. */
  datatype Store<C> = Store(x: int, y: int, color: C)

  /** The pixel coordinates of a sequence of store calls, in call order. */
  function Coords<C>(stores: seq<Store<C>>): (ps: seq<(int, int)>)
    ensures |ps| == |stores|
    ensures forall i :: 0 <= i < |stores| ==> ps[i] == (stores[i].x, stores[i].y)
  {
    seq(|stores|, i requires 0 <= i < |stores| => (stores[i].x, stores[i].y))
  }

  /** Reference order for one row: `(a, y), (a + 1, y), ..., (b - 1, y)`. */
  function RowVisits(a: int, b: int, y: int): seq<(int, int)>
    decreases b - a
  {
    if b <= a then [] else RowVisits(a, b - 1, y) + [(b - 1, y)]
  }

  /** Reference row-major order for rows `miny .. y1 - 1` of the columns `[minx, maxx)`. */
  function RowsVisits(minx: int, maxx: int, miny: int, y1: int): seq<(int, int)>
    decreases y1 - miny
  {
    if y1 <= miny then [] else RowsVisits(minx, maxx, miny, y1 - 1) + RowVisits(minx, maxx, y1 - 1)
  }

  function TileVisits(t: Range): seq<(int, int)> {
    RowsVisits(t.minx, t.maxx, t.miny, t.maxy)
  }

  lemma {:induction false} RowVisitsCount(a: int, b: int, y: int, p: (int, int))
    ensures multiset(RowVisits(a, b, y))[p] == if a <= p.0 < b && p.1 == y then 1 else 0
    ensures |RowVisits(a, b, y)| == IntMath.Max(b - a, 0)
    decreases b - a
  {
    if b > a {
      RowVisitsCount(a, b - 1, y, p);
    }
  }

  lemma {:induction false} RowsVisitsCount(minx: int, maxx: int, miny: int, y1: int, p: (int, int))
    ensures multiset(RowsVisits(minx, maxx, miny, y1))[p] ==
      if minx <= p.0 < maxx && miny <= p.1 < y1 then 1 else 0
    ensures |RowsVisits(minx, maxx, miny, y1)| == IntMath.Max(maxx - minx, 0) * IntMath.Max(y1 - miny, 0)
    decreases y1 - miny
  {
    if y1 > miny {
      RowsVisitsCount(minx, maxx, miny, y1 - 1, p);
      RowVisitsCount(minx, maxx, y1 - 1, p);
      var w := IntMath.Max(maxx - minx, 0);
      assert w * (y1 - 1 - miny) + w == w * (y1 - miny);
    }
  }

  /** The row-major order visits every pixel of the tile exactly once and nothing else. */
  lemma TileVisitsExactlyOnce(t: Range, x: int, y: int)
    ensures multiset(TileVisits(t))[(x, y)] == if Contains(t, x, y) then 1 else 0
    ensures |TileVisits(t)| == PixelCount(t)
  {
    RowsVisitsCount(t.minx, t.maxx, t.miny, t.maxy, (x, y));
  }

  /** The `i`-th visit of a row-major traversal of a tile `w` pixels wide is column `i % w` of row `i / w`. */
  lemma {:induction false} TileVisitsRowMajor(minx: int, maxx: int, miny: int, y1: int, i: int)
    requires minx < maxx && miny <= y1
    requires 0 <= i < (maxx - minx) * (y1 - miny)
    ensures |RowsVisits(minx, maxx, miny, y1)| == (maxx - minx) * (y1 - miny)
    ensures RowsVisits(minx, maxx, miny, y1)[i] == (minx + i % (maxx - minx), miny + i / (maxx - minx))
    decreases y1 - miny
  {
    var w := maxx - minx;
    var before := RowsSplit(minx, maxx, miny, y1, i);
    var A := RowsVisits(minx, maxx, miny, y1 - 1);
    var B := RowVisits(minx, maxx, y1 - 1);
    if i < before {
      TileVisitsRowMajor(minx, maxx, miny, y1 - 1, i);
      assert (A + B)[i] == A[i];
    } else {
      var j := i - before;
      assert (A + B)[i] == B[j];
      RowVisitsAt(minx, maxx, y1 - 1, j);
      DivModOfRow(i, w, y1 - 1 - miny, j);
    }
  }

  /** The traversal up to row `y1` is the traversal up to the row before, then that row. */
  lemma RowsSplit(minx: int, maxx: int, miny: int, y1: int, i: int) returns (before: int)
    requires minx < maxx && miny <= y1
    requires 0 <= i < (maxx - minx) * (y1 - miny)
    ensures miny < y1
    ensures before == (maxx - minx) * (y1 - 1 - miny)
    ensures RowsVisits(minx, maxx, miny, y1) == RowsVisits(minx, maxx, miny, y1 - 1) + RowVisits(minx, maxx, y1 - 1)
    ensures |RowsVisits(minx, maxx, miny, y1 - 1)| == before
    ensures |RowVisits(minx, maxx, y1 - 1)| == maxx - minx
    ensures |RowsVisits(minx, maxx, miny, y1)| == (maxx - minx) * (y1 - miny) == before + (maxx - minx)
    ensures i < before || 0 <= i - before < maxx - minx
  {
    var w, rows := maxx - minx, y1 - miny;
    PositiveProduct(w, rows);
    before := w * (rows - 1);
    assert before + w == w * rows;
    RowsVisitsCount(minx, maxx, miny, y1, (0, 0));
    RowsVisitsCount(minx, maxx, miny, y1 - 1, (0, 0));
    RowVisitsCount(minx, maxx, y1 - 1, (0, 0));
  }

  lemma {:induction false} RowVisitsAt(a: int, b: int, y: int, j: int)
    requires 0 <= j < b - a
    ensures |RowVisits(a, b, y)| == b - a
    ensures RowVisits(a, b, y)[j] == (a + j, y)
    decreases b - a
  {
    var prefix := RowVisits(a, b - 1, y);
    assert RowVisits(a, b, y) == prefix + [(b - 1, y)];
    RowVisitsCount(a, b - 1, y, (0, 0));
    if j < b - 1 - a {
      RowVisitsAt(a, b - 1, y, j);
      assert (prefix + [(b - 1, y)])[j] == prefix[j];
    }
  }

  lemma PositiveProduct(w: int, r: int)
    requires w > 0
    ensures (w * r > 0) == (r > 0)
  {
    IntMath.ProductBounds(r, w);
  }

  /** Index `w * r + j` with `0 <= j < w` lies in row `r`, column `j`. */
  lemma DivModOfRow(i: int, w: int, r: int, j: int)
    requires w > 0 && r >= 0 && 0 <= j < w && i == w * r + j
    ensures i / w == r && i % w == j
  {
    var q, m := i / w, i % w;
    assert i == q * w + m;
    assert (q - r) * w == j - m;
    IntMath.ProductBounds(q - r, w);
  }

  /**
   * Reference result of iterating over a tile: one store per pixel in
   * row-major order, coloured by `pixel` at that pixel.
   */
  function TileStores<C>(tile: Range, pixel: (int, int) -> C): (r: seq<Store<C>>)
    ensures Coords(r) == TileVisits(tile)
    ensures forall i :: 0 <= i < |r| ==> r[i].color == pixel(r[i].x, r[i].y)
  {
    var v := TileVisits(tile);
    var r := seq(|v|, i requires 0 <= i < |v| => Store(v[i].0, v[i].1, pixel(v[i].0, v[i].1)));
    assert forall i :: 0 <= i < |v| ==> Coords(r)[i] == v[i];
    r
  }

  /**
   * The nested loops of `iterate_over_tile`: for each pixel in row-major
   * order the colour is computed by `pixel` (the per-pixel function the
   * tile function returned) and passed on with the same coordinates.
   */
  method IterateOverTile<C>(block: WorkBlock, pixel: (int, int) -> C) returns (stores: seq<Store<C>>)
    ensures Coords(stores) == TileVisits(block.tile)
    ensures forall i :: 0 <= i < |stores| ==> stores[i].color == pixel(stores[i].x, stores[i].y)
    ensures stores == TileStores(block.tile, pixel)
  {
    var t := block.tile;
    stores := [];
    var y := t.miny;
    while y < t.maxy
      invariant t.miny <= y <= IntMath.Max(t.miny, t.maxy)
      invariant Coords(stores) == RowsVisits(t.minx, t.maxx, t.miny, y)
      invariant forall i :: 0 <= i < |stores| ==> stores[i].color == pixel(stores[i].x, stores[i].y)
    {
      var x := t.minx;
      while x < t.maxx
        invariant t.minx <= x <= IntMath.Max(t.minx, t.maxx)
        invariant Coords(stores) == RowsVisits(t.minx, t.maxx, t.miny, y) + RowVisits(t.minx, x, y)
        invariant forall i :: 0 <= i < |stores| ==> stores[i].color == pixel(stores[i].x, stores[i].y)
      {
        assert Coords(stores + [Store(x, y, pixel(x, y))]) == Coords(stores) + [(x, y)];
        stores := stores + [Store(x, y, pixel(x, y))];
        x := x + 1;
      }
      assert RowVisits(t.minx, x, y) == RowVisits(t.minx, t.maxx, y);
      y := y + 1;
    }
    assert RowsVisits(t.minx, t.maxx, t.miny, y) == TileVisits(t);
    var reference := TileStores(t, pixel);
    forall i | 0 <= i < |stores|
      ensures stores[i] == reference[i]
    {
      assert Coords(stores)[i] == Coords(reference)[i];
    }
  }
}

=== FILE: vectors.dfy ===
/**
 * `luc::VectorTN<T, N>` and its operators, at the integer element types
 * (`Int2/3/4`, `Long2/3/4`) and at `bool` (`Bool2/3/4`), where the
 * operands are promoted to `int` and the result converted back.
 *
 * The C++ type is a union whose named members (`x y z w`, `r g b a`,
 * `u v w`, `xy`, `yz`, `xyz`, ...) all alias positions of the component
 * array `E`; the model keeps only `E` and reads the named positions through
 * accessor functions. Element types are unbounded integers: the model
 * describes runs in which the C++ arithmetic does not overflow.
 */
module Vectors {
  import opened IntMath

  datatype Vector<T> = Vector(E: seq<T>) {
    function X(): T requires |E| >= 1 { E[0] }
    function Y(): T requires |E| >= 2 { E[1] }
    function Z(): T requires |E| >= 3 { E[2] }
    function W(): T requires |E| >= 4 { E[3] }
  }

  /** The sizes N for which the component constructors and the operators exist. */
  predicate HasOperators<T>(t: Vector<T>) {
    2 <= |t.E| <= 4
  }

  /** Both operands of a binary operator are `VectorTN<_, N>` for the same N. */
  predicate SameSize<A, B>(t: Vector<A>, u: Vector<B>) {
    HasOperators(t) && |t.E| == |u.E|
  }

  predicate NoZero(u: Vector<int>) {
    forall i :: 0 <= i < |u.E| ==> u.E[i] != 0
  }

  // ---------------------------------------------------------------------
  // Building blocks: one function applied to every component.

  function Apply<A, B>(t: Vector<A>, f: A -> B): (r: Vector<B>)
    ensures |r.E| == |t.E|
    ensures forall i :: 0 <= i < |t.E| ==> r.E[i] == f(t.E[i])
  {
    Vector(seq(|t.E|, i requires 0 <= i < |t.E| => f(t.E[i])))
  }

  function Zip<A, B, C>(t: Vector<A>, u: Vector<B>, f: (A, B) -> C): (r: Vector<C>)
    requires |t.E| == |u.E|
    ensures |r.E| == |t.E|
    ensures forall i :: 0 <= i < |t.E| ==> r.E[i] == f(t.E[i], u.E[i])
  {
    Vector(seq(|t.E|, i requires 0 <= i < |t.E| => f(t.E[i], u.E[i])))
  }

  // ---------------------------------------------------------------------
  // Constructors

  /** `VectorTN(t)`: every one of the n components is `t`. */
  function Broadcast<T>(n: nat, t: T): (r: Vector<T>)
    ensures |r.E| == n
    ensures forall i :: 0 <= i < n ==> r.E[i] == t
  {
    Vector(seq(n, _ => t))
  }

  /** `VectorTN()`: delegates to `VectorTN(0)`. */
  function Zero(n: nat): (r: Vector<int>)
    ensures |r.E| == n
    ensures forall i :: 0 <= i < n ==> r.E[i] == 0
  {
    Broadcast(n, 0)
  }

  function Vector2<T>(x: T, y: T): (r: Vector<T>)
    ensures |r.E| == 2 && r.X() == x && r.Y() == y
  {
    Vector([x, y])
  }

  function Vector3<T>(x: T, y: T, z: T): (r: Vector<T>)
    ensures |r.E| == 3 && r.X() == x && r.Y() == y && r.Z() == z
  {
    Vector([x, y, z])
  }

  function Vector4<T>(x: T, y: T, z: T, w: T): (r: Vector<T>)
    ensures |r.E| == 4 && r.X() == x && r.Y() == y && r.Z() == z && r.W() == w
  {
    Vector([x, y, z, w])
  }

  /** `VectorTN<T,3>(xy, z)` */
  function Vector3Of21<T>(xy: Vector<T>, z: T): (r: Vector<T>)
    requires |xy.E| == 2
    ensures r.E == xy.E + [z]
  {
    Vector3(xy.X(), xy.Y(), z)
  }

  /** `VectorTN<T,3>(x, yz)` */
  function Vector3Of12<T>(x: T, yz: Vector<T>): (r: Vector<T>)
    requires |yz.E| == 2
    ensures r.E == [x] + yz.E
  {
    Vector3(x, yz.X(), yz.Y())
  }

  /** `VectorTN<T,4>(xy, z, w)` */
  function Vector4Of211<T>(xy: Vector<T>, z: T, w: T): (r: Vector<T>)
    requires |xy.E| == 2
    ensures r.E == xy.E + [z, w]
  {
    Vector4(xy.X(), xy.Y(), z, w)
  }

  /** `VectorTN<T,4>(xyz, w)` */
  function Vector4Of31<T>(xyz: Vector<T>, w: T): (r: Vector<T>)
    requires |xyz.E| == 3
    ensures r.E == xyz.E + [w]
  {
    Vector4(xyz.X(), xyz.Y(), xyz.Z(), w)
  }

  /** `VectorTN<T,4>(xy, zw)` */
  function Vector4Of22<T>(xy: Vector<T>, zw: Vector<T>): (r: Vector<T>)
    requires |xy.E| == 2 && |zw.E| == 2
    ensures r.E == xy.E + zw.E
  {
    Vector4(xy.X(), xy.Y(), zw.X(), zw.Y())
  }

  /** `VectorTN<T,4>(x, yzw)` */
  function Vector4Of13<T>(x: T, yzw: Vector<T>): (r: Vector<T>)
    requires |yzw.E| == 3
    ensures r.E == [x] + yzw.E
  {
    Vector4(x, yzw.X(), yzw.Y(), yzw.Z())
  }

  /** `VectorTN<T,4>(x, yz, w)` */
  function Vector4Of121<T>(x: T, yz: Vector<T>, w: T): (r: Vector<T>)
    requires |yz.E| == 2
    ensures r.E == [x] + yz.E + [w]
  {
    Vector4(x, yz.X(), yz.Y(), w)
  }

  /** `VectorTN<T,4>(x, y, zw)` */
  function Vector4Of112<T>(x: T, y: T, zw: Vector<T>): (r: Vector<T>)
    requires |zw.E| == 2
    ensures r.E == [x, y] + zw.E
  {
    Vector4(x, y, zw.X(), zw.Y())
  }

  // ---------------------------------------------------------------------
  // Arithmetic: vector-vector, vector-scalar and scalar-vector forms

  function Add(t: Vector<int>, u: Vector<int>): (r: Vector<int>)
    requires SameSize(t, u)
    ensures |r.E| == |t.E|
    ensures forall i :: 0 <= i < |t.E| ==> r.E[i] == t.E[i] + u.E[i]
  {
    Zip(t, u, (a, b) => a + b)
  }

  function AddScalar(t: Vector<int>, s: int): (r: Vector<int>)
    requires HasOperators(t)
    ensures |r.E| == |t.E|
    ensures forall i :: 0 <= i < |t.E| ==> r.E[i] == t.E[i] + s
  {
    Apply(t, a => a + s)
  }

  function ScalarAdd(s: int, u: Vector<int>): (r: Vector<int>)
    requires HasOperators(u)
    ensures |r.E| == |u.E|
    ensures forall i :: 0 <= i < |u.E| ==> r.E[i] == s + u.E[i]
  {
    Apply(u, b => s + b)
  }

  function Sub(t: Vector<int>, u: Vector<int>): (r: Vector<int>)
    requires SameSize(t, u)
    ensures |r.E| == |t.E|
    ensures forall i :: 0 <= i < |t.E| ==> r.E[i] == t.E[i] - u.E[i]
  {
    Zip(t, u, (a, b) => a - b)
  }

  function SubScalar(t: Vector<int>, s: int): (r: Vector<int>)
    requires HasOperators(t)
    ensures |r.E| == |t.E|
    ensures forall i :: 0 <= i < |t.E| ==> r.E[i] == t.E[i] - s
  {
    Apply(t, a => a - s)
  }

  function ScalarSub(s: int, u: Vector<int>): (r: Vector<int>)
    requires HasOperators(u)
    ensures |r.E| == |u.E|
    ensures forall i :: 0 <= i < |u.E| ==> r.E[i] == s - u.E[i]
  {
    Apply(u, b => s - b)
  }

  function Mul(t: Vector<int>, u: Vector<int>): (r: Vector<int>)
    requires SameSize(t, u)
    ensures |r.E| == |t.E|
    ensures forall i :: 0 <= i < |t.E| ==> r.E[i] == t.E[i] * u.E[i]
  {
    Zip(t, u, (a, b) => a * b)
  }

  function MulScalar(t: Vector<int>, s: int): (r: Vector<int>)
    requires HasOperators(t)
    ensures |r.E| == |t.E|
    ensures forall i :: 0 <= i < |t.E| ==> r.E[i] == t.E[i] * s
  {
    Apply(t, a => a * s)
  }

  function ScalarMul(s: int, u: Vector<int>): (r: Vector<int>)
    requires HasOperators(u)
    ensures |r.E| == |u.E|
    ensures forall i :: 0 <= i < |u.E| ==> r.E[i] == s * u.E[i]
  {
    Apply(u, b => s * b)
  }

  /** Integer division truncates toward zero and is undefined for a zero divisor. */
  function Div(t: Vector<int>, u: Vector<int>): (r: Vector<int>)
    requires SameSize(t, u) && NoZero(u)
    ensures |r.E| == |t.E|
    ensures forall i :: 0 <= i < |t.E| ==> r.E[i] == TruncDiv(t.E[i], u.E[i])
  {
    Vector(seq(|t.E|, i requires 0 <= i < |t.E| => TruncDiv(t.E[i], u.E[i])))
  }

  function DivScalar(t: Vector<int>, s: int): (r: Vector<int>)
    requires HasOperators(t) && s != 0
    ensures |r.E| == |t.E|
    ensures forall i :: 0 <= i < |t.E| ==> r.E[i] == TruncDiv(t.E[i], s)
  {
    Vector(seq(|t.E|, i requires 0 <= i < |t.E| => TruncDiv(t.E[i], s)))
  }

  function ScalarDiv(s: int, u: Vector<int>): (r: Vector<int>)
    requires HasOperators(u) && NoZero(u)
    ensures |r.E| == |u.E|
    ensures forall i :: 0 <= i < |u.E| ==> r.E[i] == TruncDiv(s, u.E[i])
  {
    Vector(seq(|u.E|, i requires 0 <= i < |u.E| => TruncDiv(s, u.E[i])))
  }

  /** Unary minus. */
  function Neg(t: Vector<int>): (r: Vector<int>)
    requires HasOperators(t)
    ensures |r.E| == |t.E|
    ensures forall i :: 0 <= i < |t.E| ==> r.E[i] == -t.E[i]
  {
    Apply(t, a => -a)
  }

  // ---------------------------------------------------------------------
  // Comparisons: each yields a vector of booleans, one per component.

  function Lt(t: Vector<int>, u: Vector<int>): (r: Vector<bool>)
    requires SameSize(t, u)
    ensures |r.E| == |t.E|
    ensures forall i :: 0 <= i < |t.E| ==> r.E[i] == (t.E[i] < u.E[i])
  {
    Zip(t, u, (a, b) => a < b)
  }

  function LtScalar(t: Vector<int>, s: int): (r: Vector<bool>)
    requires HasOperators(t)
    ensures |r.E| == |t.E|
    ensures forall i :: 0 <= i < |t.E| ==> r.E[i] == (t.E[i] < s)
  {
    Apply(t, a => a < s)
  }

  function ScalarLt(s: int, u: Vector<int>): (r: Vector<bool>)
    requires HasOperators(u)
    ensures |r.E| == |u.E|
    ensures forall i :: 0 <= i < |u.E| ==> r.E[i] == (s < u.E[i])
  {
    Apply(u, b => s < b)
  }

  function Le(t: Vector<int>, u: Vector<int>): (r: Vector<bool>)
    requires SameSize(t, u)
    ensures |r.E| == |t.E|
    ensures forall i :: 0 <= i < |t.E| ==> r.E[i] == (t.E[i] <= u.E[i])
  {
    Zip(t, u, (a, b) => a <= b)
  }

  function LeScalar(t: Vector<int>, s: int): (r: Vector<bool>)
    requires HasOperators(t)
    ensures |r.E| == |t.E|
    ensures forall i :: 0 <= i < |t.E| ==> r.E[i] == (t.E[i] <= s)
  {
    Apply(t, a => a <= s)
  }

  function ScalarLe(s: int, u: Vector<int>): (r: Vector<bool>)
    requires HasOperators(u)
    ensures |r.E| == |u.E|
    ensures forall i :: 0 <= i < |u.E| ==> r.E[i] == (s <= u.E[i])
  {
    Apply(u, b => s <= b)
  }

  function Gt(t: Vector<int>, u: Vector<int>): (r: Vector<bool>)
    requires SameSize(t, u)
    ensures |r.E| == |t.E|
    ensures forall i :: 0 <= i < |t.E| ==> r.E[i] == (t.E[i] > u.E[i])
  {
    Zip(t, u, (a, b) => a > b)
  }

  function GtScalar(t: Vector<int>, s: int): (r: Vector<bool>)
    requires HasOperators(t)
    ensures |r.E| == |t.E|
    ensures forall i :: 0 <= i < |t.E| ==> r.E[i] == (t.E[i] > s)
  {
    Apply(t, a => a > s)
  }

  function ScalarGt(s: int, u: Vector<int>): (r: Vector<bool>)
    requires HasOperators(u)
    ensures |r.E| == |u.E|
    ensures forall i :: 0 <= i < |u.E| ==> r.E[i] == (s > u.E[i])
  {
    Apply(u, b => s > b)
  }

  function Ge(t: Vector<int>, u: Vector<int>): (r: Vector<bool>)
    requires SameSize(t, u)
    ensures |r.E| == |t.E|
    ensures forall i :: 0 <= i < |t.E| ==> r.E[i] == (t.E[i] >= u.E[i])
  {
    Zip(t, u, (a, b) => a >= b)
  }

  function GeScalar(t: Vector<int>, s: int): (r: Vector<bool>)
    requires HasOperators(t)
    ensures |r.E| == |t.E|
    ensures forall i :: 0 <= i < |t.E| ==> r.E[i] == (t.E[i] >= s)
  {
    Apply(t, a => a >= s)
  }

  function ScalarGe(s: int, u: Vector<int>): (r: Vector<bool>)
    requires HasOperators(u)
    ensures |r.E| == |u.E|
    ensures forall i :: 0 <= i < |u.E| ==> r.E[i] == (s >= u.E[i])
  {
    Apply(u, b => s >= b)
  }

  function Eq<T(==)>(t: Vector<T>, u: Vector<T>): (r: Vector<bool>)
    requires SameSize(t, u)
    ensures |r.E| == |t.E|
    ensures forall i :: 0 <= i < |t.E| ==> r.E[i] == (t.E[i] == u.E[i])
  {
    Zip(t, u, (a, b) => a == b)
  }

  function EqScalar<T(==)>(t: Vector<T>, s: T): (r: Vector<bool>)
    requires HasOperators(t)
    ensures |r.E| == |t.E|
    ensures forall i :: 0 <= i < |t.E| ==> r.E[i] == (t.E[i] == s)
  {
    Apply(t, a => a == s)
  }

  function ScalarEq<T(==)>(s: T, u: Vector<T>): (r: Vector<bool>)
    requires HasOperators(u)
    ensures |r.E| == |u.E|
    ensures forall i :: 0 <= i < |u.E| ==> r.E[i] == (s == u.E[i])
  {
    Apply(u, b => s == b)
  }

  function Ne<T(==)>(t: Vector<T>, u: Vector<T>): (r: Vector<bool>)
    requires SameSize(t, u)
    ensures |r.E| == |t.E|
    ensures forall i :: 0 <= i < |t.E| ==> r.E[i] == (t.E[i] != u.E[i])
  {
    Zip(t, u, (a, b) => a != b)
  }

  function NeScalar<T(==)>(t: Vector<T>, s: T): (r: Vector<bool>)
    requires HasOperators(t)
    ensures |r.E| == |t.E|
    ensures forall i :: 0 <= i < |t.E| ==> r.E[i] == (t.E[i] != s)
  {
    Apply(t, a => a != s)
  }

  function ScalarNe<T(==)>(s: T, u: Vector<T>): (r: Vector<bool>)
    requires HasOperators(u)
    ensures |r.E| == |u.E|
    ensures forall i :: 0 <= i < |u.E| ==> r.E[i] == (s != u.E[i])
  {
    Apply(u, b => s != b)
  }

  // ---------------------------------------------------------------------
  // Compound assignments. Each returns the value stored into its left
  // operand. All eight store the SUM of the operands, as the C++ does.

  function AddAssign(t: Vector<int>, u: Vector<int>): (r: Vector<int>)
    requires SameSize(t, u)
    ensures |r.E| == |t.E|
    ensures forall i :: 0 <= i < |t.E| ==> r.E[i] == t.E[i] + u.E[i]
  {
    Add(t, u)
  }

  function AddAssignScalar(t: Vector<int>, s: int): (r: Vector<int>)
    requires HasOperators(t)
    ensures |r.E| == |t.E|
    ensures forall i :: 0 <= i < |t.E| ==> r.E[i] == t.E[i] + s
  {
    AddScalar(t, s)
  }

  function SubAssign(t: Vector<int>, u: Vector<int>): (r: Vector<int>)
    requires SameSize(t, u)
    ensures |r.E| == |t.E|
    ensures forall i :: 0 <= i < |t.E| ==> r.E[i] == t.E[i] + u.E[i]
  {
    Add(t, u)
  }

  function SubAssignScalar(t: Vector<int>, s: int): (r: Vector<int>)
    requires HasOperators(t)
    ensures |r.E| == |t.E|
    ensures forall i :: 0 <= i < |t.E| ==> r.E[i] == t.E[i] + s
  {
    AddScalar(t, s)
  }

  function MulAssign(t: Vector<int>, u: Vector<int>): (r: Vector<int>)
    requires SameSize(t, u)
    ensures |r.E| == |t.E|
    ensures forall i :: 0 <= i < |t.E| ==> r.E[i] == t.E[i] + u.E[i]
  {
    Add(t, u)
  }

  function MulAssignScalar(t: Vector<int>, s: int): (r: Vector<int>)
    requires HasOperators(t)
    ensures |r.E| == |t.E|
    ensures forall i :: 0 <= i < |t.E| ==> r.E[i] == t.E[i] + s
  {
    AddScalar(t, s)
  }

  function DivAssign(t: Vector<int>, u: Vector<int>): (r: Vector<int>)
    requires SameSize(t, u)
    ensures |r.E| == |t.E|
    ensures forall i :: 0 <= i < |t.E| ==> r.E[i] == t.E[i] + u.E[i]
  {
    Add(t, u)
  }

  function DivAssignScalar(t: Vector<int>, s: int): (r: Vector<int>)
    requires HasOperators(t)
    ensures |r.E| == |t.E|
    ensures forall i :: 0 <= i < |t.E| ==> r.E[i] == t.E[i] + s
  {
    AddScalar(t, s)
  }

  /** The corrected `t -= u`: the stored value is the one that adding `u` back undoes. */
  function SubAssignIntended(t: Vector<int>, u: Vector<int>): (r: Vector<int>)
    requires SameSize(t, u)
    ensures |r.E| == |t.E|
    ensures Add(r, u) == t
  {
    var r := Sub(t, u);
    assert Add(r, u).E == t.E;
    r
  }

  /** The corrected `t *= u`: the componentwise product. */
  function MulAssignIntended(t: Vector<int>, u: Vector<int>): (r: Vector<int>)
    requires SameSize(t, u)
    ensures |r.E| == |t.E|
    ensures forall i :: 0 <= i < |t.E| ==> r.E[i] == t.E[i] * u.E[i]
  {
    Mul(t, u)
  }

  /** The corrected `t /= u`: the componentwise truncating quotient (`DivUndoesMul` shows it undoes `*`). */
  function DivAssignIntended(t: Vector<int>, u: Vector<int>): (r: Vector<int>)
    requires SameSize(t, u) && NoZero(u)
    ensures |r.E| == |t.E|
    ensures forall i :: 0 <= i < |t.E| ==> r.E[i] == TruncDiv(t.E[i], u.E[i])
  {
    Div(t, u)
  }

  // ---------------------------------------------------------------------
  // Algebraic facts relating the operators

  /** A scalar operand of `+`, `-`, `*` or `/` acts as the vector with that scalar in every component. */
  lemma ArithmeticScalarsBroadcast(t: Vector<int>, s: int)
    requires HasOperators(t)
    ensures var b := Broadcast(|t.E|, s);
      && AddScalar(t, s) == Add(t, b) && ScalarAdd(s, t) == Add(b, t)
      && SubScalar(t, s) == Sub(t, b) && ScalarSub(s, t) == Sub(b, t)
      && MulScalar(t, s) == Mul(t, b) && ScalarMul(s, t) == Mul(b, t)
    ensures s != 0 ==> DivScalar(t, s) == Div(t, Broadcast(|t.E|, s))
    ensures NoZero(t) ==> ScalarDiv(s, t) == Div(Broadcast(|t.E|, s), t)
  {
    var b := Broadcast(|t.E|, s);
    assert AddScalar(t, s).E == Add(t, b).E && ScalarAdd(s, t).E == Add(b, t).E;
    assert SubScalar(t, s).E == Sub(t, b).E && ScalarSub(s, t).E == Sub(b, t).E;
    assert MulScalar(t, s).E == Mul(t, b).E && ScalarMul(s, t).E == Mul(b, t).E;
    if s != 0 {
      assert DivScalar(t, s).E == Div(t, b).E;
    }
    if NoZero(t) {
      assert ScalarDiv(s, t).E == Div(b, t).E;
    }
  }

  /** A scalar operand of a comparison acts as the vector with that scalar in every component. */
  lemma ComparisonScalarsBroadcast(t: Vector<int>, s: int)
    requires HasOperators(t)
    ensures var b := Broadcast(|t.E|, s);
      && LtScalar(t, s) == Lt(t, b) && ScalarLt(s, t) == Lt(b, t)
      && LeScalar(t, s) == Le(t, b) && ScalarLe(s, t) == Le(b, t)
      && GtScalar(t, s) == Gt(t, b) && ScalarGt(s, t) == Gt(b, t)
      && GeScalar(t, s) == Ge(t, b) && ScalarGe(s, t) == Ge(b, t)
      && EqScalar(t, s) == Eq(t, b) && ScalarEq(s, t) == Eq(b, t)
      && NeScalar(t, s) == Ne(t, b) && ScalarNe(s, t) == Ne(b, t)
  {
    var b := Broadcast(|t.E|, s);
    assert LtScalar(t, s).E == Lt(t, b).E && ScalarLt(s, t).E == Lt(b, t).E;
    assert LeScalar(t, s).E == Le(t, b).E && ScalarLe(s, t).E == Le(b, t).E;
    assert GtScalar(t, s).E == Gt(t, b).E && ScalarGt(s, t).E == Gt(b, t).E;
    assert GeScalar(t, s).E == Ge(t, b).E && ScalarGe(s, t).E == Ge(b, t).E;
    assert EqScalar(t, s).E == Eq(t, b).E && ScalarEq(s, t).E == Eq(b, t).E;
    assert NeScalar(t, s).E == Ne(t, b).E && ScalarNe(s, t).E == Ne(b, t).E;
  }

  /** Subtraction undoes addition, in both orders. */
  lemma SubUndoesAdd(t: Vector<int>, u: Vector<int>)
    requires SameSize(t, u)
    ensures Sub(Add(t, u), u) == t
    ensures Add(Sub(t, u), u) == t
  {
    assert Sub(Add(t, u), u).E == t.E;
    assert Add(Sub(t, u), u).E == t.E;
  }

  /** Unary minus is subtraction from the zero vector, is its own inverse and cancels addition. */
  lemma NegProperties(t: Vector<int>)
    requires HasOperators(t)
    ensures Neg(t) == Sub(Zero(|t.E|), t)
    ensures Neg(Neg(t)) == t
    ensures Add(t, Neg(t)) == Zero(|t.E|)
  {
    assert Neg(t).E == Sub(Zero(|t.E|), t).E;
    assert Neg(Neg(t)).E == t.E;
    assert Add(t, Neg(t)).E == Zero(|t.E|).E;
  }

  /** The default-constructed vector is the additive identity and a broadcast 1 the multiplicative one. */
  lemma Identities(t: Vector<int>)
    requires HasOperators(t)
    ensures Add(t, Zero(|t.E|)) == t
    ensures Mul(t, Broadcast(|t.E|, 1)) == t
  {
    assert Add(t, Zero(|t.E|)).E == t.E;
    assert Mul(t, Broadcast(|t.E|, 1)).E == t.E;
  }

  /** Truncating division by a divisor with no zero component undoes multiplication by it. */
  lemma DivUndoesMul(t: Vector<int>, u: Vector<int>)
    requires SameSize(t, u) && NoZero(u)
    ensures Div(Mul(t, u), u) == t
  {
    forall i | 0 <= i < |t.E|
      ensures Div(Mul(t, u), u).E[i] == t.E[i]
    {
      TruncDivOfMultiple(t.E[i], u.E[i]);
    }
    assert Div(Mul(t, u), u).E == t.E;
  }

  /** How the six comparisons relate to one another, component by component. */
  lemma ComparisonDualities(t: Vector<int>, u: Vector<int>)
    requires SameSize(t, u)
    ensures Lt(t, u) == Gt(u, t)
    ensures Le(t, u) == Ge(u, t)
    ensures Ne(t, u) == Apply(Eq(t, u), (b: bool) => !b)
    ensures Ge(t, u) == Apply(Lt(t, u), (b: bool) => !b)
    ensures Le(t, u) == Zip(Lt(t, u), Eq(t, u), (a: bool, b: bool) => a || b)
  {
    assert Lt(t, u).E == Gt(u, t).E;
    assert Le(t, u).E == Ge(u, t).E;
    assert Ne(t, u).E == Apply(Eq(t, u), (b: bool) => !b).E;
    assert Ge(t, u).E == Apply(Lt(t, u), (b: bool) => !b).E;
    assert Le(t, u).E == Zip(Lt(t, u), Eq(t, u), (a: bool, b: bool) => a || b).E;
  }

  /** As written, `t -= u` agrees with `t - u` only when `u` is the zero vector. */
  lemma SubAssignIsNotSubtraction(t: Vector<int>, u: Vector<int>)
    requires SameSize(t, u)
    ensures SubAssign(t, u) == Sub(t, u) <==> u == Zero(|u.E|)
  {
    if u == Zero(|u.E|) {
      assert SubAssign(t, u).E == Sub(t, u).E;
    } else {
      var i :| 0 <= i < |u.E| && u.E[i] != 0;
      assert SubAssign(t, u).E[i] != Sub(t, u).E[i];
    }
  }

  /** As written, `(3, 3) *= (2, 2)` stores `(5, 5)`, not the product `(6, 6)`. */
  lemma MulAssignIsNotMultiplication()
    ensures MulAssign(Vector2(3, 3), Vector2(2, 2)) == Vector2(5, 5)
    ensures MulAssignIntended(Vector2(3, 3), Vector2(2, 2)) == Vector2(6, 6)
  {
    assert MulAssign(Vector2(3, 3), Vector2(2, 2)).E == [5, 5];
    assert MulAssignIntended(Vector2(3, 3), Vector2(2, 2)).E == [6, 6];
  }

  /** As written, `(6, 6) /= (2, 2)` stores `(8, 8)`, not the quotient `(3, 3)`. */
  lemma DivAssignIsNotDivision()
    ensures DivAssign(Vector2(6, 6), Vector2(2, 2)) == Vector2(8, 8)
    ensures DivAssignIntended(Vector2(6, 6), Vector2(2, 2)) == Vector2(3, 3)
  {
    assert DivAssign(Vector2(6, 6), Vector2(2, 2)).E == [8, 8];
    assert DivAssignIntended(Vector2(6, 6), Vector2(2, 2)).E == [3, 3];
  }

  // ---------------------------------------------------------------------
  // The operators at T = bool (`Bool2/3/4`). The C++ promotes each bool
  // component to `int` (false to 0, true to 1) and computes in `int`; the
  // arithmetic operators then build their result with the `const T&`
  // constructor, which converts each component back (nonzero to true).

  /** Integral promotion of every component. */
  function Promote(t: Vector<bool>): (r: Vector<int>)
    ensures |r.E| == |t.E|
    ensures forall i :: 0 <= i < |t.E| ==> r.E[i] == if t.E[i] then 1 else 0
  {
    Apply(t, (b: bool) => if b then 1 else 0)
  }

  /** Conversion of every component back to `bool`. */
  function Demote(v: Vector<int>): (r: Vector<bool>)
    ensures |r.E| == |v.E|
    ensures forall i :: 0 <= i < |v.E| ==> r.E[i] == (v.E[i] != 0)
  {
    Apply(v, (n: int) => n != 0)
  }

  /** `t + u` on bool vectors is componentwise OR. */
  function BoolAdd(t: Vector<bool>, u: Vector<bool>): (r: Vector<bool>)
    requires SameSize(t, u)
    ensures |r.E| == |t.E|
    ensures forall i :: 0 <= i < |t.E| ==> r.E[i] == (t.E[i] || u.E[i])
  {
    Demote(Add(Promote(t), Promote(u)))
  }

  /** `t - u` on bool vectors is componentwise exclusive OR. */
  function BoolSub(t: Vector<bool>, u: Vector<bool>): (r: Vector<bool>)
    requires SameSize(t, u)
    ensures |r.E| == |t.E|
    ensures forall i :: 0 <= i < |t.E| ==> r.E[i] == (t.E[i] != u.E[i])
  {
    Demote(Sub(Promote(t), Promote(u)))
  }

  /** `t * u` on bool vectors is componentwise AND. */
  function BoolMul(t: Vector<bool>, u: Vector<bool>): (r: Vector<bool>)
    requires SameSize(t, u)
    ensures |r.E| == |t.E|
    ensures forall i :: 0 <= i < |t.E| ==> r.E[i] == (t.E[i] && u.E[i])
  {
    Demote(Mul(Promote(t), Promote(u)))
  }

  /** `t / u` on bool vectors: a `false` divisor is a division by zero, and dividing by `true` changes nothing. */
  function BoolDiv(t: Vector<bool>, u: Vector<bool>): (r: Vector<bool>)
    requires SameSize(t, u) && forall i :: 0 <= i < |u.E| ==> u.E[i]
    ensures r == t
  {
    var r := Demote(Div(Promote(t), Promote(u)));
    assert r.E == t.E;
    r
  }

  /** Unary minus on a bool vector changes nothing: `-1` converts back to `true`. */
  function BoolNeg(t: Vector<bool>): (r: Vector<bool>)
    requires HasOperators(t)
    ensures r == t
  {
    var r := Demote(Neg(Promote(t)));
    assert r.E == t.E;
    r
  }

  /** As written, every compound assignment `+= -= *= /=` stores `t + u`, which on bool vectors is componentwise OR. */
  function BoolAssign(t: Vector<bool>, u: Vector<bool>): (r: Vector<bool>)
    requires SameSize(t, u)
    ensures |r.E| == |t.E|
    ensures forall i :: 0 <= i < |t.E| ==> r.E[i] == (t.E[i] || u.E[i])
  {
    BoolAdd(t, u)
  }

  /** `t < u` on bool vectors orders `false` before `true`. */
  function BoolLt(t: Vector<bool>, u: Vector<bool>): (r: Vector<bool>)
    requires SameSize(t, u)
    ensures |r.E| == |t.E|
    ensures forall i :: 0 <= i < |t.E| ==> r.E[i] == (!t.E[i] && u.E[i])
  {
    Lt(Promote(t), Promote(u))
  }

  /** `t <= u` on bool vectors is componentwise implication. */
  function BoolLe(t: Vector<bool>, u: Vector<bool>): (r: Vector<bool>)
    requires SameSize(t, u)
    ensures |r.E| == |t.E|
    ensures forall i :: 0 <= i < |t.E| ==> r.E[i] == (t.E[i] ==> u.E[i])
  {
    Le(Promote(t), Promote(u))
  }

  function BoolGt(t: Vector<bool>, u: Vector<bool>): (r: Vector<bool>)
    requires SameSize(t, u)
    ensures |r.E| == |t.E|
    ensures forall i :: 0 <= i < |t.E| ==> r.E[i] == (t.E[i] && !u.E[i])
  {
    Gt(Promote(t), Promote(u))
  }

  function BoolGe(t: Vector<bool>, u: Vector<bool>): (r: Vector<bool>)
    requires SameSize(t, u)
    ensures |r.E| == |t.E|
    ensures forall i :: 0 <= i < |t.E| ==> r.E[i] == (u.E[i] ==> t.E[i])
  {
    Ge(Promote(t), Promote(u))
  }

  /**
   * Over bool the arithmetic laws of the integer instance fail: `+` and `*`
   * are idempotent, `-` is its own inverse, and `t - t` is all false.
   */
  lemma BoolAlgebra(t: Vector<bool>, u: Vector<bool>)
    requires SameSize(t, u)
    ensures BoolAdd(t, t) == t && BoolMul(t, t) == t
    ensures BoolSub(BoolSub(t, u), u) == t
    ensures BoolSub(t, t) == Broadcast(|t.E|, false)
    ensures BoolSub(BoolAdd(t, u), u) == t <==> BoolMul(t, u) == Broadcast(|t.E|, false)
  {
    assert BoolAdd(t, t).E == t.E;
    assert BoolMul(t, t).E == t.E;
    assert BoolSub(BoolSub(t, u), u).E == t.E;
    assert BoolSub(t, t).E == Broadcast(|t.E|, false).E;
    if BoolMul(t, u) == Broadcast(|t.E|, false) {
      forall i | 0 <= i < |t.E|
        ensures BoolSub(BoolAdd(t, u), u).E[i] == t.E[i]
      {
        assert BoolMul(t, u).E[i] == false;
      }
      assert BoolSub(BoolAdd(t, u), u).E == t.E;
    } else {
      var i :| 0 <= i < |t.E| && BoolMul(t, u).E[i] != Broadcast(|t.E|, false).E[i];
      assert BoolSub(BoolAdd(t, u), u).E[i] != t.E[i];
    }
  }
}

=== FILE: wrappers.dfy ===
/** The optional value returned by the work queue (`std::optional` in the C++ source). */
module Wrappers {

  datatype Option<+T> = None | Some(value: T)
}
